=== FILE: README.md ===
# Image deduplication by camera: a Dafny model

This project models the decision logic of `imaging_interview.py`. That script cleans a folder of surveillance-camera stills in several steps:

- It groups the files by the camera id at the head of each name.
- Within each group it pops one image at a time as a *base*.
- It throws away a base that is corrupted, unsupported or invalid (*CUI*). That means the file cannot be read, or it is below a resolution floor of 120x176.
- It compares every remaining image of the group with the base, using a change-detection score:
  - The two frames are shrunk to their common size.
  - The script takes their absolute difference, binarises it at 45 and dilates it.
  - It adds up the areas of the contours that reach a minimum area.
- A pair whose score is below a resolution-dependent threshold is a duplicate.
- Depending on the `action` parameter, CUI images and duplicates are either deleted, or moved to `CUI/` and `DUP/<base>/`.

The model has one module per piece of that logic:

- `CameraGroups` (camera_groups.dfy) covers camera-id parsing (`str.split` modelled exactly) and grouping.
- `ResolutionPolicy` (resolution_policy.dfy) covers the very-low-resolution floor, the per-image blur list, the area tiers and the minimum contour area.
- `PairGeometry` (pair_geometry.dfy) covers the common size of a pair and the border-mask coordinates.
- `ChangeScorer` (change_scorer.dfy) covers the absdiff/binarise mask on flat 8-bit frames and the contour filter-and-sum.
- `PairComparison` (pair_comparison.dfy) covers the per-pair parameters and the duplicate verdict.
- `DedupSweep` (dedup_sweep.dfy) covers the greedy sweep of one group and of all groups. The sweep works over two oracles, `isCui` and `isDup`, and emits a trace of disposition events: `Cui`, `Keep`, `Dup` and `Distinct`. Set pop and iteration order is an oracle `pick` that may choose any member. The one oracle serves both `images.pop()` and iteration of the `set(images)` copy, so the model cannot express a pop order and an iteration order that differ on equal sets. No proof relies on that coupling: every property of the sweep holds for every `pick`.
- `Dispatch` (dispatch.dfy) covers carrying a trace out on a folder, modelled as a map from paths to contents: delete, move, and copy-if-absent.
- `ShrinkingBase` (shrinking_base.dfy) covers one group's sweep with the real classifiers, as the code writes it. Inside the candidate loop the base frame is replaced by its resized copy and never restored, so later candidates are judged against a base shrunk to the common size of the earlier readable ones. The module proves that this sweep judges each pair once, and is therefore the oracle sweep whose `isDup` is read off its own verdicts.
- `Interview` (interview.dfy) covers the whole run, both as written and with every pair judged on its own two sizes, and proves what the folder holds afterwards in both cases.

## Model

| member | source | states |
|---|---|---|
| `CameraGroups.Split` | imaging_interview.py:186-189 | Splitting never yields an empty list, no piece contains the separator, and joining the pieces with the separator gives back the input. |
| `CameraGroups.JoinHead` | imaging_interview.py:190 | The first piece is a prefix of the joined string. If there are more pieces, the separator comes right after it. |
| `CameraGroups.CameraId` | imaging_interview.py:186-190 | The id is a prefix of the name and never contains `-`. With a `-` in the name, the id stops right before a `-`. Without one, the id has no `_` and stops right before a `_` or at the end. A name with neither separator is its own id. |
| `CameraGroups.CameraIdIsUniqueFirstToken` | imaging_interview.py:186-190 | Any prefix that stops at the first separator the code chooses is the camera id. The id is the unique first token. |
| `CameraGroups.IdOfDashedName` | imaging_interview.py:182-190 | A name `<id>-<rest>` with a dash-free id has camera id `id`. |
| `CameraGroups.IdOfUnderscoredName` | imaging_interview.py:182-190 | A name `<id>_<rest>` with no dash anywhere and no underscore in `id` has camera id `id`. |
| `CameraGroups.GroupByCameraId` | imaging_interview.py:174-192 | Every file is in the group keyed by its own camera id, every group member is an input file with that id, and no group is empty. |
| `CameraGroups.Insert` | imaging_interview.py:191 | Adding a file creates its camera's key if missing, adds exactly that file to its camera's group, and leaves every other group as it was. |
| `CameraGroups.InsertKeepsGrouping` | imaging_interview.py:191 | Adding one file to a grouping of the earlier files gives a grouping of all files so far. |
| `CameraGroups.GroupingIsPartition` | imaging_interview.py:177-192 | The groups partition the input: a file is in a group iff the key is its id, distinct groups are disjoint, and their union is exactly the set of input files. |
| `CameraGroups.TwoCameraExample` | imaging_interview.py:182-192 | Two `a-…` names and one `b-…` name give exactly the map `{a: {both a names}, b: {the b name}}`. |
| `ResolutionPolicy.IsVeryLowResolution` | imaging_interview.py:113-115 | A frame that is not very low has `h >= 120`, `w >= 176` and so at least 21120 pixels. |
| `ResolutionPolicy.IsCui` | imaging_interview.py:205 | An unreadable record is CUI. A record that is not CUI is a readable image with `h >= 120` and `w >= 176`. |
| `ResolutionPolicy.AreaTier` | imaging_interview.py:279-304 | The area bands never yield the very-low tier. `TiersPartitionArea` pins each band to its interval. |
| `ResolutionPolicy.ImageTier` | imaging_interview.py:118-130 | An image is in the very-low tier iff it is below the floor. Otherwise its tier is the band of its area. |
| `ResolutionPolicy.BlurKernels` | imaging_interview.py:118-130 | There is no blur list exactly when the image is below the floor. Otherwise the list has at least two kernel sizes, all positive and odd, strictly increasing. |
| `ResolutionPolicy.BlurKernelsFollowTier` | imaging_interview.py:118-130 | The blur list of every image is its tier's row: none, [1,3], [3,5] or [5,7,9]. |
| `ResolutionPolicy.VeryLowHasNoKernels` | imaging_interview.py:113-120 | An image is in the very-low tier iff `h < 120 or w < 176`, and it gets no blur list iff it is in that tier. |
| `ResolutionPolicy.TiersPartitionArea` | imaging_interview.py:125-130 | The area tiers are the three intervals below 307200, from 307200 up to 921600, and from 921600 on. They do not overlap and leave no gap. |
| `ResolutionPolicy.AreaTierMonotone` | imaging_interview.py:280-304 | A larger area never gets a lower tier, a smaller area fraction or a smaller similarity threshold. |
| `ResolutionPolicy.ImageTierMonotone` | imaging_interview.py:118-130 | Among images above the floor, a larger image never gets a lower tier or a smaller largest blur kernel. |
| `ResolutionPolicy.FloorBoundsArea` | imaging_interview.py:113-115 | Every image above the floor has at least 120*176 pixels. |
| `ResolutionPolicy.CuiClassification` | imaging_interview.py:205 | An unreadable record is CUI. A readable one is CUI iff `h < 120 or w < 176`, so a 50x50 image is CUI. |
| `ResolutionPolicy.MinContourArea` | imaging_interview.py:103-105 | The minimum area is non-negative. For a fraction in [0,1] it is at most the frame area. For a positive fraction it is zero iff the frame has no pixels. |
| `ResolutionPolicy.MinContourAreaMonotone` | imaging_interview.py:103-105 | Growing either side of the frame never lowers the minimum contour area. |
| `PairGeometry.AlignFrames` | imaging_interview.py:246-261 | After the resize step both frames have the same size. Neither frame grows, and each dimension is one of the inputs' dimensions. A frame is resized iff its size differs from the target. |
| `PairGeometry.AlignmentIsLargestCommonFit` | imaging_interview.py:250-251 | Every size that fits inside both frames fits inside the common size, so the common size is the largest common fit. |
| `PairGeometry.SmallerFrameUntouched` | imaging_interview.py:255-261 | A frame that already fits inside the other keeps its size and is not resized. Two equal frames are both left alone. |
| `PairGeometry.AlignmentKeepsFloor` | imaging_interview.py:250-251 | If neither frame is below the resolution floor, their common size is not either. |
| `PairGeometry.PairTierAtMostImageTier` | imaging_interview.py:279-280 | The tier that picks a pair's parameters is never above the tier of either frame. |
| `PairGeometry.AreaShrinks` | imaging_interview.py:250-251 | A size that fits inside another has no more pixels. |
| `PairGeometry.TruncPercent` | imaging_interview.py:12-15 | `int(n / 100)` truncates toward zero: for n >= 0 the result q has `100q <= n < 100q + 100`, and the mirror image holds for negative n. |
| `PairGeometry.MaskBox` | imaging_interview.py:8-15 | Each inner-window coordinate is the truncated percentage of the frame side. For a non-negative percentage, `x_min` and `y_min` are non-negative, and `x_max` and `y_max` do not exceed the frame. |
| `PairGeometry.MaskBoxWithinFrame` | imaging_interview.py:12-15 | Percentages in [0,100] whose opposite sides sum to at most 100 give a window with `0 <= x_min <= x_max <= w` and `0 <= y_min <= y_max <= h`. |
| `PairGeometry.SidesFit` | imaging_interview.py:12-15 | Two truncated percentages of a side, whose percentages sum to at most 100, sum to at most the side. |
| `PairGeometry.DefaultMaskKeepsBottom` | imaging_interview.py:25 | The default mask (5,10,5,0) puts the bottom rectangle's edge at row `h`, below the frame, so the bottom edge is never masked. On a 1080x1920 frame the rectangles' edge coordinates are 96, 1824, 108 and 1080. |
| `PairGeometry.DefaultMaskWindow` | imaging_interview.py:8-22 | Filled rectangles cover both corner points, so on a 1080x1920 frame the default mask leaves exactly columns 97..1823 and rows 109..1079 unpainted. |
| `ChangeScorer.AbsDiff` | imaging_interview.py:38 | Each output pixel is one of the two signed differences and at least both of them, so it is the absolute difference. It is zero exactly where the two frames agree. |
| `ChangeScorer.AbsDiffSymmetric` | imaging_interview.py:38 | The difference does not depend on which frame comes first. |
| `ChangeScorer.ThresholdBinary` | imaging_interview.py:39 | The output is binary: every pixel is 0 or `maxval`. For a non-zero `maxval`, a pixel is set iff the input strictly exceeds the threshold. |
| `ChangeScorer.ThresholdMonotone` | imaging_interview.py:39 | Raising the threshold never sets more pixels. |
| `ChangeScorer.ChangeMask` | imaging_interview.py:37-39 | A mask pixel is 255 iff the two frames differ there by more than 45, and 0 iff they differ by at most 45. |
| `ChangeScorer.ChangeMaskSymmetric` | imaging_interview.py:38-39 | The mask does not depend on which frame comes first. |
| `ChangeScorer.ChangeMaskOfIdenticalFrames` | imaging_interview.py:38-39 | A frame compared with itself gives an all-zero mask. |
| `ChangeScorer.Surviving` | imaging_interview.py:48-52 | The kept contours are exactly the inputs at or above the minimum area, with their multiplicities: each such area is kept as often as it occurs, and no other area is kept. |
| `ChangeScorer.Total` | imaging_interview.py:53 | The sum of the areas is non-negative and at least each single area. |
| `ChangeScorer.Score` | imaging_interview.py:46-55 | The score is non-negative and at least the area of every contour that reaches the minimum area. |
| `ChangeScorer.ScoreContours` | imaging_interview.py:46-55 | The loop keeps exactly the surviving contours, in order. The score it returns is their total area and is never negative. |
| `ChangeScorer.TotalBoundsEach` | imaging_interview.py:53 | The sum of the areas is at least each single area. |
| `ChangeScorer.ScoreZeroIffNoSurvivor` | imaging_interview.py:46-55 | With a positive minimum, the score is zero iff every contour is below the minimum area. |
| `ChangeScorer.NothingSurvives` | imaging_interview.py:48-50 | When every contour is below the minimum, none is kept. |
| `ChangeScorer.ScoreAtLeastMinimumWhenAnySurvives` | imaging_interview.py:48-53 | As soon as one contour reaches the minimum area, the score reaches it too. |
| `ChangeScorer.ScoreOfOneRegion` | imaging_interview.py:46-55 | A single changed region scores its own area if it reaches the minimum area, and 0 otherwise. |
| `PairComparison.PairParameters` | imaging_interview.py:279-304 | The area fraction (0.00025, 0.0005, 0.001) and threshold (500, 1000, 2000) are the rows of the common size's area tier. The minimum area is `h*w*fraction`. |
| `PairComparison.PairParametersMonotone` | imaging_interview.py:279-304 | A larger common area never gets a smaller fraction or a smaller threshold. |
| `PairComparison.JudgePair` | imaging_interview.py:246-306 | The common size is the aligned size of the two frames and fits inside both. The parameters are those of the common size, and the score is the total area of the contours that reach its minimum area. The pair is a duplicate iff the score is below the tier's threshold. |
| `PairComparison.NoSurvivorMeansDuplicate` | imaging_interview.py:279-306 | If no contour reaches the minimum area, the score is 0 and the pair is a duplicate, in every tier. |
| `PairComparison.IdenticalFramesAreDuplicates` | imaging_interview.py:37-55 | Two identical frames are always a duplicate pair, provided contour extraction finds nothing in an all-zero mask. |
| `PairComparison.ExtraContourNeverLowersScore` | imaging_interview.py:46-55 | One more contour never lowers the score, so a distinct pair stays distinct. |
| `PairComparison.LargeFramesDuplicateIffNoSurvivor` | imaging_interview.py:292-306 | In a common size of at least 2,000,000 pixels, a pair is a duplicate iff no contour reaches the minimum area. |
| `PairComparison.FullHdPatchScenarios` | imaging_interview.py:292-306 | At 1080x1920 the minimum area is 2073.6. A 2500-pixel changed region makes the pair distinct, and a 100-pixel one leaves it a duplicate. |
| `DedupSweep.Enumerate` | imaging_interview.py:220 | Iterating a snapshot of a set visits every member exactly once. |
| `DedupSweep.PassEvent` | imaging_interview.py:227-322 | A candidate is reported as CUI, a duplicate of the base, or distinct from it. When the base is readable, the event agrees with the oracles. |
| `DedupSweep.CandidatePass` | imaging_interview.py:220-322 | A candidate leaves the working set iff it is CUI or a duplicate of the base. The settled records are exactly those removed, and every remaining candidate was compared and judged distinct. |
| `DedupSweep.CandidatePassEvents` | imaging_interview.py:220-322 | The inner loop keeps no record, names only the base and its candidates, and compares only against the base. With a readable base, every event agrees with the oracles. |
| `DedupSweep.CandidatePassCounts` | imaging_interview.py:220-322 | The inner loop makes at most one comparison per candidate and settles each candidate at most once. |
| `DedupSweep.Step` | imaging_interview.py:197-236 | The popped base leaves the working set for good, so the set strictly shrinks. A CUI base is reported and compared with nothing. After a readable base, exactly the candidates that are neither CUI nor its duplicates remain. |
| `DedupSweep.StepEventsSettleRemovedRecords` | imaging_interview.py:198-322 | One outer iteration settles exactly the records it takes out of the working set, each once. Its events agree with the oracles and name only records of the working set. |
| `DedupSweep.Sweep` | imaging_interview.py:197-322 | The loop settles every record of the group exactly once and nothing else. Every event agrees with the oracles and names only records of the group. |
| `DedupSweep.RemovedOrKept` | imaging_interview.py:205-322 | A settled record is either removed or kept as a base. In a trace that settles each record once, it is never both. |
| `DedupSweep.SweepUnfolds` | imaging_interview.py:197-198 | The sweep of a non-empty set is one outer iteration followed by the sweep of what it leaves. |
| `DedupSweep.StepComparisonBound` | imaging_interview.py:220 | One outer iteration compares its base with at most every other record. |
| `DedupSweep.SweepComparisonBound` | imaging_interview.py:197-322 | A group of n records gets at most n(n-1)/2 comparisons. |
| `DedupSweep.SmallGroupsMakeNoComparisons` | imaging_interview.py:197-220 | A single-record group makes no comparison, and an empty group produces no events. |
| `DedupSweep.ComparisonsUseKeptBases` | imaging_interview.py:205-220 | Every comparison is made against a base that was kept, never a CUI one. |
| `DedupSweep.EveryRecordSettled` | imaging_interview.py:197-322 | Every CUI record is reported as CUI. Every readable record is kept as a base or removed as some base's duplicate. |
| `DedupSweep.StepKeepsOnlyItsBase` | imaging_interview.py:198-236 | In one outer iteration only the first event can keep a record, and it does so exactly when the popped base is readable. |
| `DedupSweep.BaseJudgesLaterKeeps` | imaging_interview.py:220-322 | Every record kept after a readable base was compared with that base and judged distinct. |
| `DedupSweep.KeptPairsConcat` | imaging_interview.py:197-198 | Kept records stay pairwise distinct when a step whose only kept record was judged distinct from every later one precedes a trace whose kept records are pairwise distinct. |
| `DedupSweep.KeptBasesAreNotDuplicates` | imaging_interview.py:197-322 | Of two records kept one after the other, the later was compared with the earlier and judged not a duplicate. |
| `DedupSweep.SweepGroups` | imaging_interview.py:195-197 | Sweeping the groups in key order gives events that all agree with the oracles. |
| `DedupSweep.SweepGroupsStayInGroups` | imaging_interview.py:196-198 | Each event names records of a single group, and the settled records are exactly the members of the swept groups. |
| `DedupSweep.SweepGroupsSettleOnce` | imaging_interview.py:196-198 | Sweeping disjoint groups, each once, settles every record at most once. |
| `DedupSweep.CameraGroupsDisjoint` | imaging_interview.py:186-191 | Files of different cameras never share a group. |
| `DedupSweep.SweepFolderSettlesFiles` | imaging_interview.py:325-338 | Sweeping a folder's groups settles exactly the folder's files. |
| `DedupSweep.SweepFolderPairsSameCamera` | imaging_interview.py:325-338 | Every comparison pairs two files of one camera: groups never interact. |
| `DedupSweep.SweepFolder` | imaging_interview.py:325-338 | Over a whole folder, every file is settled exactly once and every comparison stays within one camera. |
| `Dispatch.CopyIfAbsent` | imaging_interview.py:149-161 | An existing destination is left alone. Otherwise the copy succeeds iff the source exists, and the result is the folder with the destination set to the source's content. A missing source is an error. |
| `Dispatch.CopyIsIdempotent` | imaging_interview.py:158-160 | Copying a second time changes nothing. |
| `Dispatch.Dispatch` | imaging_interview.py:208-322 | A disposition yields operations iff it is a CUI record or a duplicate. Under `remove` the operations are exactly one delete of the subject. Under `move`, a CUI record gets one move into `CUI/`, and a duplicate gets two operations: a copy of its base into the base's `DUP/` folder, then a move of the candidate there. |
| `Dispatch.ApplyOp` | imaging_interview.py:135-161 | A primitive succeeds iff its source file is in the working folder, or, for a copy, the destination already exists. A delete takes exactly that file away. No path outside the working folder disappears, and no file appears in the working folder or changes there. |
| `Dispatch.ApplyOps` | imaging_interview.py:230-234 | A run of primitives that succeeds removes no path outside the working folder, and adds or changes no file in it. A run of deletes alone leaves everything outside the working folder, paths and contents, as it was. |
| `Dispatch.Execute` | imaging_interview.py:195-322 | Carrying out a trace removes no path outside the working folder. Under `remove`, everything outside the working folder keeps its paths and contents. A trace of kept bases and distinct pairs only leaves the folder as it was. |
| `Dispatch.ExecuteOne` | imaging_interview.py:205-322 | One disposition whose files are present succeeds. It takes exactly its removed record out of the working folder, and every other file there keeps its content. Under `remove`, every path outside the working folder is present afterwards iff it was before, with the same contents. |
| `Dispatch.SubjectsOfRestAreFree` | imaging_interview.py:197-322 | In a trace that settles each record once, the first event's record is not settled again or removed later. |
| `Dispatch.ExecuteTrace` | imaging_interview.py:195-322 | A trace whose removed records and duplicate bases are present succeeds. It leaves the working folder holding exactly the files that were not removed, with their contents. Under `remove`, every path outside the working folder keeps its presence and contents. |
| `Dispatch.SweepLeavesOnlyBases` | imaging_interview.py:195-322 | After a group's sweep runs on a folder holding the group, the folder keeps exactly the records kept as bases. Under `remove`, everything outside the working folder keeps its paths and contents. |
| `ShrinkingBase.BaseSizeAfter` | imaging_interview.py:246-256 | The base frame's size after the loop has aligned it with some candidates fits inside the base and inside every readable candidate seen. |
| `ShrinkingBase.BaseSizeIsLargestCommonFit` | imaging_interview.py:246-256 | Every size that fits inside the base and every readable candidate seen fits inside the running size. With `BaseSizeAfter` this makes it the element-wise minimum. |
| `ShrinkingBase.ShrinkingPass` | imaging_interview.py:220-322 | The loop as written removes only candidates of its snapshot. |
| `ShrinkingBase.ShrinkingPassVerdicts` | imaging_interview.py:220-322 | The k-th candidate is removed iff it is CUI, or it is a duplicate of the base at the size left by the readable candidates before it. |
| `ShrinkingBase.JudgedOnceHasVerdicts` | imaging_interview.py:220-322 | A trace that judges each pair once records exactly the verdicts of the oracle that reads them back off the trace. |
| `ShrinkingBase.JudgedOnceConcat` | imaging_interview.py:197-220 | Two traces that each judge every pair once, and share no pair, together judge every pair once. |
| `ShrinkingBase.ShrinkingPassEvents` | imaging_interview.py:220-322 | The loop as written keeps no record and compares only the base with its candidates. It judges each pair once when the snapshot has no repeats. |
| `ShrinkingBase.ShrinkingStep` | imaging_interview.py:197-236 | The popped base leaves the working set for good, so the set strictly shrinks. |
| `ShrinkingBase.ShrinkingStepEvents` | imaging_interview.py:197-322 | One outer iteration as written names only records of the working set, compares only against the popped base, and judges each pair once. |
| `ShrinkingBase.ShrinkingSweep` | imaging_interview.py:197-322 | A group's sweep as written names only the group's records and judges each pair once. |
| `ShrinkingBase.ShrinkingPassIsOraclePass` | imaging_interview.py:220-322 | Given an oracle that agrees with every verdict the loop as written records, the oracle pass over the same snapshot is the same pass. |
| `ShrinkingBase.ShrinkingSweepIsOracleSweep` | imaging_interview.py:197-322 | Given an oracle that agrees with every recorded verdict, the oracle sweep of the group is the same trace. |
| `ShrinkingBase.WrittenSweepIsOracleSweep` | imaging_interview.py:197-322 | The sweep as written is the oracle sweep whose oracle is read off its own verdicts, so every `DedupSweep` property holds of it. |
| `Interview.RunVerdicts` | imaging_interview.py:196-322 | The verdicts read off each camera group's trace agree with every verdict that trace records. |
| `Interview.ShrinkingGroupsIsOracleSweep` | imaging_interview.py:196-322 | Sweeping the groups as written is the oracle sweep of the groups, for any oracle that agrees with every group's verdicts. |
| `Interview.RunTrace` | imaging_interview.py:325-338 | The run as written is the oracle sweep of the folder's groups under its own verdicts. Every CUI record it reports is unreadable or undersized. Every kept base and every compared record is neither. |
| `Interview.IntendedTrace` | imaging_interview.py:246-306 | With every pair judged on its two loaded sizes, every event agrees with the classifiers. A duplicate pair scored below the threshold of its own common size, and a distinct pair did not. |
| `Interview.ShrunkBaseFlipsVerdict` | imaging_interview.py:246-306 | Consider a 1080x1920 base whose candidates are a 480x640 image, then a 1080x1920 image with one 3000 px change. As written, the second pair is compared at 480x640, where that region measures 3000·307200/2073600, about 444 px. The candidate is then deleted as a duplicate. Judged on its own sizes, it scores 3000 and is kept. |
| `Interview.SmallPairIsDistinct` | imaging_interview.py:246-306 | A 1080x1920 base and a 480x640 candidate are compared at 480x640, and one 1500 px region makes them distinct. |
| `Interview.ShrunkPairIsDuplicate` | imaging_interview.py:246-306 | At the shrunk size 480x640, a 3000 px full-size region scaled by 307200/2073600 survives the minimum area and still scores below the threshold 1000. |
| `Interview.WrittenPassDeletesFull` | imaging_interview.py:220-322 | In the loop as written, the 480x640 candidate shrinks the base and the later 1080x1920 candidate is deleted as a duplicate. |
| `Interview.FullPairIsDistinct` | imaging_interview.py:246-306 | Judged on its own sizes, the pair with the 3000 px region is compared at 1080x1920 and is distinct. |
| `Interview.PerPairPassKeepsFull` | imaging_interview.py:246-306 | With each pair judged on its own sizes, neither candidate of that witness is removed. |
| `Interview.GroupComparisonsUseKeptBases` | imaging_interview.py:196-220 | Across all groups, every comparison is made against a record the run keeps. |
| `Interview.FolderTraceFits` | imaging_interview.py:325-338 | For any pair verdicts, the run settles each file once, as removed or kept. Every removed file and every base used for a duplicate is in the folder, and no such base is removed. |
| `Interview.FolderEndState` | imaging_interview.py:325-338 | For any pair verdicts, a run on a folder holding all listed files succeeds. The working folder keeps exactly the files kept as bases, each readable and above the floor. Under `remove`, every path outside the working folder keeps its presence and contents. |
| `Interview.RunLeavesOnlyKeptBases` | imaging_interview.py:325-338 | The run as written, on a folder holding all listed files, succeeds. The working folder keeps exactly its kept bases, each readable and above the floor. Under `remove`, every path outside the working folder keeps its presence and contents. |
| `Interview.IntendedRunLeavesOnlyKeptBases` | imaging_interview.py:325-338 | The run with per-pair verdicts ends the same way: it succeeds, and the working folder keeps exactly its kept bases. Under `remove`, everything outside the working folder keeps its paths and contents. |

## Left out

- Image operations are left out because they are foreign library calls whose semantics are not visible: `cv2.imread`, colour conversion, histogram equalisation, Gaussian blur, rectangle filling, `resize` with INTER_AREA, `dilate`, `findContours` and `contourArea`.
  - An image is represented by its loaded size, or by being unreadable.
  - The blur list is computed, but its effect on pixels is not.
  - The change mask is modelled before dilation.
  - The contour areas of a pair's dilated mask are an input sequence of non-negative reals.
- `ChangeScorer.ScoreContours` returns the score and the kept contours but not the dilated mask, since dilation is not modelled.
- `PairComparison.JudgePair` takes the contour areas as an input, so it does not derive them from `ChangeScorer.ChangeMask`. `IdenticalFramesAreDuplicates` links the two only through a stated assumption on contour extraction.
- Float arithmetic is replaced by exact arithmetic. The minimum contour area is an exact real `h*w*fraction`, and `int(b*w/100)` is integer division truncated toward zero. No bit-exact float claims are made.
- Paths are simplified. `os.path.abspath`, `os.path.join`, `os.makedirs` and the separator rewriting are not modelled: a path is a folder (working folder, `CUI`, or `DUP/<base>`) and a file name. The DUP subfolder is keyed by the base's whole name rather than its stem from `os.path.splitext`. So two bases that differ only in extension share one `DUP` folder in the source but not in the model.
- `main`'s `os.listdir` and its extension filter are left out. The file list is a parameter.
- The key order of the grouping dictionary is a parameter `ids`.
- The order in which `set.pop()` and set iteration visit members is an oracle `pick` that may choose any member. One oracle serves both, which the source does not promise; no proof depends on it.
- The pixels of a base frame that has been resized several times are not modelled. The contour areas of a pair are keyed by the base and candidate names. Within one run this is fully general, because the run judges each pair at most once. It does not relate the areas one pair has at two different sizes, so comparing the run as written with the per-pair run needs two contour functions; `ShrunkBaseFlipsVerdict` scales the areas by the ratio of the two frame areas.
- ApplyOp, ApplyOps, Execute: under `move`, moving a file onto an existing `CUI/<name>` or `DUP/<base>/<name>` replaces that file, as `shutil.move` does on POSIX. So under `move`, the model promises only that no path outside the working folder disappears, not that its contents survive.
- `action` strings other than `remove` and `move` are left out. In the source they make the sweep classify records without touching the folder, which is the trace itself.
- Print statements are left out, as are the helpers `check_frame_size`, `check_frame_channels`, `get_unique_frame_sizes`, `get_unique_frame_sizes_count` and `get_unique_aspect_ratios`. They are diagnostics that only print or are never called.
- Errors raised by `os.remove` and `shutil.move` on a missing file are modelled as an error result (`None`). The model proves they never happen on a folder that holds every listed file. Errors of `os.makedirs`, permissions and concurrent changes to the folder are not modelled.

## Findings

| source | as written | input that shows it | evidently intended | confidence | as-written member | corrected member |
|---|---|---|---|---|---|---|
| imaging_interview.py:253-256 | `prev_frame = cv2.resize(prev_frame, …)` overwrites the base frame inside the candidate loop. Every later candidate is judged against the base shrunk to the common size of all earlier readable candidates, with that size's area tier, minimum area and threshold. | A 1080x1920 base with candidates iterated as a 480x640 image, then a 1080x1920 image whose only change is one 3000 px region. The second pair is judged at 480x640 (minimum 153.6, threshold 1000). There the region measures about 444 px, scores below the threshold, and the candidate is deleted as a duplicate. | Each pair is resized on its own: the comment at line 253 describes a resize made for the current pair only. The second pair is then judged at 1080x1920 (minimum 2073.6, threshold 2000), scores 3000 and is kept as distinct. | medium, not executed | `Interview.ShrunkBaseFlipsVerdict` | `Interview.IntendedTrace` |

The run as written (`Interview.RunTrace`) is the model of the code. The per-pair run (`Interview.IntendedTrace`) is the corrected one. Both are instances of the oracle sweep, so every `DedupSweep` and `Dispatch` property holds of both, and `RunLeavesOnlyKeptBases` and `IntendedRunLeavesOnlyKeptBases` give both end states.

## Notes on the source

- The binarisation step uses `cv2.THRESH_BINARY` with threshold 45, which sets a pixel when the difference is strictly greater than 45. The model follows the code. A difference of exactly 45 is "no change".

=== FILE: camera_groups.dfy ===
/** Camera identity of an image file name, and the partition of a list of
    file names into camera groups (group_images_by_camera_id). */
module CameraGroups {

  /** Python's `str.split(sep)` for a one-character separator: the pieces
      between separators, in order, empty pieces included. */
  function Split(s: string, sep: char): (parts: seq<string>)
    ensures |parts| >= 1
    ensures forall i :: 0 <= i < |parts| ==> sep !in parts[i]
    ensures Join(parts, sep) == s
    decreases |s|
  {
    if |s| == 0 then [""]
    else
      var rest := Split(s[1..], sep);
      if s[0] == sep then
        assert s == [sep] + s[1..];
        [""] + rest
      else
        JoinExtendsHead(s[0], rest, sep);
        assert s == [s[0]] + s[1..];
        [[s[0]] + rest[0]] + rest[1..]
  }

  /** `sep.join(parts)`: the inverse of Split. */
  function Join(parts: seq<string>, sep: char): string
    requires |parts| >= 1
    decreases |parts|
  {
    if |parts| == 1 then parts[0] else parts[0] + [sep] + Join(parts[1..], sep)
  }

  /** Prepending a character to the first piece prepends it to the joined string. */
  lemma JoinExtendsHead(c: char, parts: seq<string>, sep: char)
    requires |parts| >= 1
    ensures Join([[c] + parts[0]] + parts[1..], sep) == [c] + Join(parts, sep)
  {
    var ext := [[c] + parts[0]] + parts[1..];
    assert ext[1..] == parts[1..];
  }

  /** The first piece of a join is a prefix of it, followed by the separator
      when there are more pieces, and it is everything when there are none. */
  lemma JoinHead(parts: seq<string>, sep: char)
    requires |parts| >= 1
    ensures parts[0] <= Join(parts, sep)
    ensures |parts| > 1 ==> |parts[0]| < |Join(parts, sep)| && Join(parts, sep)[|parts[0]|] == sep
    ensures |parts| == 1 ==> Join(parts, sep) == parts[0]
  {
    if |parts| > 1 {
      var j := Join(parts, sep);
      assert j == parts[0] + [sep] + Join(parts[1..], sep);
      assert j[|parts[0]|] == sep;
    }
  }

  /** The camera id of a file name: the first `-`-separated piece when the
      name contains a `-`, otherwise the first `_`-separated piece (which is
      the whole name when it holds neither separator). */
  function CameraId(name: string): (id: string)
    ensures id <= name
    ensures '-' !in id
    ensures '-' in name ==> |id| < |name| && name[|id|] == '-'
    ensures '-' !in name ==> '_' !in id && (|id| < |name| ==> name[|id|] == '_')
    ensures '-' !in name && '_' !in name ==> id == name
  {
    var sep := if '-' in name then '-' else '_';
    var parts := Split(name, sep);
    JoinHead(parts, sep);
    assert |parts| > 1 ==> sep in name by {
      if |parts| > 1 {
        assert name[|parts[0]|] == sep;
      }
    }
    parts[0]
  }

  /** Any prefix of `name` that ends right before a `sep` (or at the end of a
      separator-free name) and holds no `sep` is the first split piece. */
  predicate IsFirstToken(name: string, sep: char, t: string)
  {
    && t <= name
    && sep !in t
    && (|t| < |name| ==> name[|t|] == sep)
  }

  /** The camera id is the unique first token for the separator the source
      chooses: two prefixes that both stop at the first separator coincide. */
  lemma CameraIdIsUniqueFirstToken(name: string, t: string)
    requires IsFirstToken(name, if '-' in name then '-' else '_', t)
    ensures t == CameraId(name)
  {
    var id := CameraId(name);
    var sep := if '-' in name then '-' else '_';
    assert IsFirstToken(name, sep, id);
    if |t| < |id| {
      assert false;
    } else if |id| < |t| {
      assert false;
    }
    assert t == name[..|t|] == id;
  }

  /** The dictionary built by the grouping loop: camera id to the set of
      file names carrying that id, keys created only on insertion. */
  function GroupByCameraId(files: seq<string>): (groups: map<string, set<string>>)
    ensures forall f :: f in files ==> CameraId(f) in groups && f in groups[CameraId(f)]
    ensures forall id, f :: id in groups && f in groups[id] ==> f in files && CameraId(f) == id
    ensures forall id :: id in groups ==> groups[id] != {}
    decreases |files|
  {
    if |files| == 0 then map[]
    else
      var earlier := files[..|files| - 1];
      var f := files[|files| - 1];
      assert files == earlier + [f];
      var g := GroupByCameraId(earlier);
      InsertKeepsGrouping(earlier, g, f);
      Insert(g, f)
  }

  /** One iteration of the grouping loop: `grouped_images[camera_id].add(f)`
      on a defaultdict(set). The key of `f` appears if it was missing, its
      group gains exactly `f`, and every other group is left as it was. */
  function Insert(g: map<string, set<string>>, f: string): (r: map<string, set<string>>)
    ensures r.Keys == g.Keys + {CameraId(f)}
    ensures CameraId(f) in g ==> r[CameraId(f)] == g[CameraId(f)] + {f}
    ensures CameraId(f) !in g ==> r[CameraId(f)] == {f}
    ensures forall id :: id in g && id != CameraId(f) ==> r[id] == g[id]
  {
    var id := CameraId(f);
    g[id := (if id in g then g[id] else {}) + {f}]
  }

  /** Adding one file to a grouping of `earlier` gives a grouping of
      `earlier + [f]`. */
  lemma InsertKeepsGrouping(earlier: seq<string>, g: map<string, set<string>>, f: string)
    requires forall x :: x in earlier ==> CameraId(x) in g && x in g[CameraId(x)]
    requires forall id, x :: id in g && x in g[id] ==> x in earlier && CameraId(x) == id
    requires forall id :: id in g ==> g[id] != {}
    ensures var g' := Insert(g, f);
      && (forall x :: x in earlier + [f] ==> CameraId(x) in g' && x in g'[CameraId(x)])
      && (forall id, x :: id in g' && x in g'[id] ==> x in earlier + [f] && CameraId(x) == id)
      && (forall id :: id in g' ==> g'[id] != {})
  {
    assert forall x :: x in earlier + [f] <==> x in earlier || x == f;
  }

  /** Grouping is a partition of the input: every file lies in exactly one
      group, that of its own camera id; distinct groups are disjoint; and the
      groups together hold exactly the input files. */
  lemma GroupingIsPartition(files: seq<string>)
    ensures var g := GroupByCameraId(files);
      && (forall f, id :: f in files && id in g ==> (f in g[id] <==> id == CameraId(f)))
      && (forall id1, id2 :: id1 in g && id2 in g && id1 != id2 ==> g[id1] !! g[id2])
      && (set id, f | id in g && f in g[id] :: f) == (set f | f in files)
  {
  }

  /** Names such as `c1-100.png`, `c1-200.png` and `c2-100.png`: two names
      of camera `a` and one of camera `b` form exactly two groups, `a` with
      two members and `b` with one. */
  lemma TwoCameraExample(a: string, b: string, r1: string, r2: string)
    requires '-' !in a && '-' !in b && a != b && r1 != r2
    ensures var f1, f2, f3 := a + "-" + r1, a + "-" + r2, b + "-" + r1;
      GroupByCameraId([f1, f2, f3]) == map[a := {f1, f2}, b := {f3}]
  {
    var f1, f2, f3 := a + "-" + r1, a + "-" + r2, b + "-" + r1;
    IdOfDashedName(a, r1);
    IdOfDashedName(a, r2);
    IdOfDashedName(b, r1);
    var g0: map<string, set<string>> := map[];
    assert GroupByCameraId([]) == g0;
    assert [f1][..0] == [];
    var g1 := GroupByCameraId([f1]);
    var none: set<string> := {};
    assert g1 == g0[a := none + {f1}];
    assert none + {f1} == {f1};
    assert g1 == map[a := {f1}];
    assert [f1, f2][..1] == [f1];
    var g2 := GroupByCameraId([f1, f2]);
    assert g2 == g1[a := g1[a] + {f2}];
    assert g1[a] + {f2} == {f1, f2};
    assert g2 == map[a := {f1, f2}];
    assert [f1, f2, f3][..2] == [f1, f2];
    assert b !in g2;
    assert GroupByCameraId([f1, f2, f3]) == g2[b := none + {f3}];
    assert none + {f3} == {f3};
  }

  /** A name of the form `<id>-<rest>` with a dash-free id has camera id `id`. */
  lemma IdOfDashedName(id: string, rest: string)
    requires '-' !in id
    ensures CameraId(id + "-" + rest) == id
  {
    var name := id + "-" + rest;
    assert name[|id|] == '-';
    assert id <= name;
    CameraIdIsUniqueFirstToken(name, id);
  }

  /** A name of the form `<id>_<rest>` with no dash anywhere and no
      underscore in `id` has camera id `id`. */
  lemma IdOfUnderscoredName(id: string, rest: string)
    requires '-' !in id && '_' !in id && '-' !in rest
    ensures CameraId(id + "_" + rest) == id
  {
    var name := id + "_" + rest;
    assert name[|id|] == '_';
    assert id <= name;
    assert '-' !in name by {
      forall i | 0 <= i < |name|
        ensures name[i] != '-'
      {
        if i < |id| {
          assert name[i] == id[i];
        } else if i > |id| {
          assert name[i] == rest[i - |id| - 1];
        }
      }
    }
    CameraIdIsUniqueFirstToken(name, id);
  }

}

=== FILE: change_scorer.dfy ===
/** Change scorer: the binary change mask of two equally sized grayscale
    frames, and the score summed over the changed regions that are large
    enough (compare_frames_change_detection). Frames are flat sequences of
    8-bit intensities; the regions are given by their areas. */
module ChangeScorer {

  /** One 8-bit grayscale intensity. */
  type Pixel = x: int | 0 <= x <= 255

  /** The area of one contour, as `cv2.contourArea` reports it. */
  type Area = r: real | r >= 0.0

  /** The fixed binarisation cutoff and the value of a changed pixel. */
  const Cutoff: int := 45
  const Changed: Pixel := 255

  /** The absolute intensity difference of two pixels. */
  function Distance(x: Pixel, y: Pixel): nat
  {
    if x >= y then x as int - y as int else y as int - x as int
  }

  /** `cv2.absdiff` on two frames of one size: each output pixel is the
      larger of the two signed differences, so it is zero exactly where the
      frames agree. */
  function AbsDiff(a: seq<Pixel>, b: seq<Pixel>): (d: seq<Pixel>)
    requires |a| == |b|
    ensures |d| == |a|
    ensures forall i :: 0 <= i < |d| ==> d[i] == Distance(a[i], b[i])
    ensures forall i :: 0 <= i < |d| ==> d[i] as int == a[i] as int - b[i] as int || d[i] as int == b[i] as int - a[i] as int
    ensures forall i :: 0 <= i < |d| ==> d[i] as int >= a[i] as int - b[i] as int && d[i] as int >= b[i] as int - a[i] as int
    ensures forall i :: 0 <= i < |d| ==> (d[i] == 0 <==> a[i] == b[i])
  {
    seq(|a|, i requires 0 <= i < |a| => Distance(a[i], b[i]) as Pixel)
  }

  /** The difference does not depend on which frame comes first. */
  lemma AbsDiffSymmetric(a: seq<Pixel>, b: seq<Pixel>)
    requires |a| == |b|
    ensures AbsDiff(a, b) == AbsDiff(b, a)
  {
    assert forall i :: 0 <= i < |a| ==> Distance(a[i], b[i]) == Distance(b[i], a[i]);
  }

  /** `cv2.threshold` with THRESH_BINARY: `maxval` where the source exceeds
      `thresh` strictly, 0 elsewhere. */
  function ThresholdBinary(src: seq<Pixel>, thresh: int, maxval: Pixel): (dst: seq<Pixel>)
    ensures |dst| == |src|
    ensures forall i :: 0 <= i < |dst| ==> dst[i] == 0 || dst[i] == maxval
    ensures maxval != 0 ==> forall i :: 0 <= i < |dst| ==> (dst[i] == maxval <==> src[i] > thresh)
    ensures forall i :: 0 <= i < |dst| ==> (dst[i] == (if src[i] > thresh then maxval else 0))
  {
    seq(|src|, i requires 0 <= i < |src| => if src[i] > thresh then maxval else 0)
  }

  /** A higher threshold never sets more pixels: every pixel set at the
      higher threshold is set at the lower one. */
  lemma ThresholdMonotone(src: seq<Pixel>, lo: int, hi: int, maxval: Pixel)
    requires lo <= hi && maxval != 0
    ensures forall i :: 0 <= i < |src| && ThresholdBinary(src, hi, maxval)[i] == maxval ==>
      ThresholdBinary(src, lo, maxval)[i] == maxval
  {
  }

  /** The mask before dilation: absolute difference, then binarise at 45. */
  function ChangeMask(a: seq<Pixel>, b: seq<Pixel>): (m: seq<Pixel>)
    requires |a| == |b|
    ensures |m| == |a|
    ensures forall i :: 0 <= i < |m| ==> (m[i] == Changed <==> Distance(a[i], b[i]) > Cutoff)
    ensures forall i :: 0 <= i < |m| ==> (m[i] == 0 <==> Distance(a[i], b[i]) <= Cutoff)
  {
    ThresholdBinary(AbsDiff(a, b), Cutoff, Changed)
  }

  /** A frame with every pixel 0. */
  function Blank(n: nat): (z: seq<Pixel>)
    ensures |z| == n
  {
    seq(n, _ => 0)
  }

  /** The mask does not depend on which frame comes first. */
  lemma ChangeMaskSymmetric(a: seq<Pixel>, b: seq<Pixel>)
    requires |a| == |b|
    ensures ChangeMask(a, b) == ChangeMask(b, a)
  {
    assert forall i :: 0 <= i < |a| ==> Distance(a[i], b[i]) == Distance(b[i], a[i]);
  }

  /** A frame compared with itself shows no change anywhere. */
  lemma ChangeMaskOfIdenticalFrames(a: seq<Pixel>)
    ensures ChangeMask(a, a) == Blank(|a|)
  {
  }

  /** The contours kept by the loop: those whose area is not below the
      minimum, in their original order. */
  function Surviving(areas: seq<Area>, minArea: real): (kept: seq<Area>)
    ensures |kept| <= |areas|
    ensures forall i :: 0 <= i < |kept| ==> kept[i] >= minArea
    ensures forall x :: x in kept <==> x in areas && x >= minArea
    ensures forall x :: multiset(kept)[x] == if x >= minArea then multiset(areas)[x] else 0
    decreases |areas|
  {
    if |areas| == 0 then []
    else
      var last := areas[|areas| - 1];
      var front := Surviving(areas[..|areas| - 1], minArea);
      assert areas == areas[..|areas| - 1] + [last];
      assert multiset(areas) == multiset(areas[..|areas| - 1]) + multiset{last};
      assert forall x :: x in areas <==> x in areas[..|areas| - 1] || x == last;
      if last < minArea then front else front + [last]
  }

  /** The sum of a sequence of areas. */
  function Total(s: seq<Area>): (t: real)
    ensures t >= 0.0
    ensures forall i :: 0 <= i < |s| ==> t >= s[i]
    decreases |s|
  {
    if |s| == 0 then 0.0 else Total(s[..|s| - 1]) + s[|s| - 1]
  }

  /** The score of a comparison: the total area of the surviving contours. */
  function Score(areas: seq<Area>, minArea: real): (score: real)
    ensures score >= 0.0
    ensures forall i :: 0 <= i < |areas| && areas[i] >= minArea ==> score >= areas[i]
  {
    var kept := Surviving(areas, minArea);
    assert forall i :: 0 <= i < |areas| && areas[i] >= minArea ==> Total(kept) >= areas[i] by {
      forall i | 0 <= i < |areas| && areas[i] >= minArea
        ensures Total(kept) >= areas[i]
      {
        assert areas[i] in kept;
      }
    }
    Total(kept)
  }

  /** The scoring loop of compare_frames_change_detection: skip every contour
      whose area is below `minArea`, keep the rest in order and add up their
      areas. The contour areas of the dilated mask are the input. */
  method ScoreContours(areas: seq<Area>, minArea: real) returns (score: real, kept: seq<Area>)
    ensures kept == Surviving(areas, minArea)
    ensures score == Score(areas, minArea)
    ensures score >= 0.0
  {
    score := 0.0;
    kept := [];
    var i := 0;
    while i < |areas|
      invariant 0 <= i <= |areas|
      invariant kept == Surviving(areas[..i], minArea)
      invariant score == Total(kept)
    {
      assert areas[..i + 1][..i] == areas[..i];
      if areas[i] < minArea {
        i := i + 1;
        continue;
      }
      assert (kept + [areas[i]])[..|kept|] == kept;
      kept := kept + [areas[i]];
      score := score + areas[i];
      i := i + 1;
    }
    assert areas[..i] == areas;
  }

  /** Every surviving contour contributes at least its own area: the score is
      at least the largest surviving area. */
  lemma {:induction false} TotalBoundsEach(s: seq<Area>, i: nat)
    requires i < |s|
    ensures Total(s) >= s[i]
    decreases |s|
  {
    if i < |s| - 1 {
      TotalBoundsEach(s[..|s| - 1], i);
    }
  }

  /** The score is zero exactly when no contour reaches the minimum area
      (given a positive minimum, a surviving contour has positive area). */
  lemma ScoreZeroIffNoSurvivor(areas: seq<Area>, minArea: real)
    requires minArea > 0.0
    ensures Score(areas, minArea) == 0.0 <==> forall i :: 0 <= i < |areas| ==> areas[i] < minArea
  {
    var kept := Surviving(areas, minArea);
    if exists i :: 0 <= i < |areas| && areas[i] >= minArea {
      var i :| 0 <= i < |areas| && areas[i] >= minArea;
      assert areas[i] in kept;
      var j :| 0 <= j < |kept| && kept[j] == areas[i];
      TotalBoundsEach(kept, j);
    } else {
      NothingSurvives(areas, minArea);
    }
  }

  /** When every contour is below the minimum, none is kept. */
  lemma {:induction false} NothingSurvives(areas: seq<Area>, minArea: real)
    requires forall i :: 0 <= i < |areas| ==> areas[i] < minArea
    ensures Surviving(areas, minArea) == []
    decreases |areas|
  {
    if |areas| > 0 {
      NothingSurvives(areas[..|areas| - 1], minArea);
    }
  }

  /** A score reaches any bound that every surviving contour reaches on its
      own, as soon as one contour survives. */
  lemma ScoreAtLeastMinimumWhenAnySurvives(areas: seq<Area>, minArea: real, i: nat)
    requires i < |areas| && areas[i] >= minArea
    ensures Score(areas, minArea) >= minArea
  {
    var kept := Surviving(areas, minArea);
    assert areas[i] in kept;
    var j :| 0 <= j < |kept| && kept[j] == areas[i];
    TotalBoundsEach(kept, j);
  }

  /** A single changed region scores its own area when it reaches the
      minimum area, and nothing otherwise. */
  lemma ScoreOfOneRegion(a: Area, minArea: real)
    ensures Score([a], minArea) == if a >= minArea then a else 0.0
  {
    assert [a][..0] == [];
    assert Surviving([a][..0], minArea) == [];
    if a >= minArea {
      assert Surviving([a], minArea) == [a];
      assert Total([a]) == Total([a][..0]) + a;
    } else {
      assert Surviving([a], minArea) == [];
    }
  }
}

=== FILE: dedup_sweep.dfy ===
/** The greedy deduplication sweep of remove_duplicates_within_group, over
    two oracles: `isCui(n)` (record `n` is unreadable or below the resolution
    floor) and `isDup(b, c)` (the pair verdict of base `b` and candidate `c`
    is "duplicate"). Instead of touching the filesystem the sweep emits a
    trace of disposition events. The order in which a set is popped or
    iterated is an oracle `pick` that may choose any member. */
module DedupSweep {
  import opened CameraGroups

  /** One disposition: a record found CUI, a readable record popped as the
      base (it stays), a candidate found to duplicate the base, and a
      candidate compared with the base and kept. */
  datatype Event =
    | Cui(name: string)
    | Keep(name: string)
    | Dup(base: string, cand: string)
    | Distinct(base: string, cand: string)
  {
    /** The comparison events: one per call of the pair verdict. */
    predicate IsComparison()
    {
      Dup? || Distinct?
    }

    /** The record this event settles for good (comparisons that keep the
        candidate settle nothing). */
    function Subject(): string
      requires !Distinct?
    {
      match this
      case Cui(n) => n
      case Keep(n) => n
      case Dup(_, c) => c
    }

    /** Every record the event mentions. */
    function Names(): set<string>
    {
      match this
      case Cui(n) => {n}
      case Keep(n) => {n}
      case Dup(b, c) => {b, c}
      case Distinct(b, c) => {b, c}
    }
  }

  /** An event agrees with the oracles: CUI records are exactly the ones
      reported as CUI, a base is never CUI, and a comparison's outcome is the
      oracle's verdict on two readable records. */
  predicate Justified(e: Event, isCui: string -> bool, isDup: (string, string) -> bool)
  {
    match e
    case Cui(n) => isCui(n)
    case Keep(n) => !isCui(n)
    case Dup(b, c) => !isCui(b) && !isCui(c) && isDup(b, c)
    case Distinct(b, c) => !isCui(b) && !isCui(c) && !isDup(b, c)
  }

  /** Pop order: `pick` hands back some member of every non-empty set. */
  ghost predicate ValidPick(pick: set<string> -> string)
  {
    forall s: set<string> :: s != {} ==> pick(s) in s
  }

  /** No element occurs twice. */
  predicate NoDup(s: seq<string>)
  {
    forall i, j :: 0 <= i < j < |s| ==> s[i] != s[j]
  }

  /** The records a trace settles, in order. */
  function Subjects(t: seq<Event>): seq<string>
    decreases |t|
  {
    if |t| == 0 then []
    else (if t[0].Distinct? then [] else [t[0].Subject()]) + Subjects(t[1..])
  }

  /** The number of pair verdicts a trace records. */
  function Comparisons(t: seq<Event>): nat
    decreases |t|
  {
    if |t| == 0 then 0
    else (if t[0].IsComparison() then 1 else 0) + Comparisons(t[1..])
  }

  /** The records a trace takes out of the folder: the CUI ones and the
      duplicates. */
  function Removed(t: seq<Event>): set<string>
    decreases |t|
  {
    if |t| == 0 then {}
    else (if t[0].Cui? || t[0].Dup? then {t[0].Subject()} else {}) + Removed(t[1..])
  }

  /** A settled record is either removed or kept as a base, and in a trace
      that settles each record once, never both. */
  lemma {:induction false} RemovedOrKept(t: seq<Event>)
    ensures forall n :: n in Subjects(t) <==> n in Removed(t) || Keep(n) in t
    ensures NoDup(Subjects(t)) ==> forall n :: !(n in Removed(t) && Keep(n) in t)
    decreases |t|
  {
    if |t| > 0 {
      RemovedOrKept(t[1..]);
      assert t == [t[0]] + t[1..];
      assert forall e :: e in t <==> e == t[0] || e in t[1..];
      if NoDup(Subjects(t)) && !t[0].Distinct? {
        var s := Subjects(t);
        assert s == [t[0].Subject()] + Subjects(t[1..]);
        assert s[1..] == Subjects(t[1..]);
        NoDupTail(s);
      } else if NoDup(Subjects(t)) {
        assert Subjects(t) == Subjects(t[1..]);
      }
    }
  }

  /** Iterating over a set: the members in pick order, each exactly once. */
  function Enumerate(s: set<string>, pick: set<string> -> string): (r: seq<string>)
    requires ValidPick(pick)
    ensures forall x :: x in r <==> x in s
    ensures NoDup(r)
    ensures |r| == |s|
    decreases s
  {
    if s == {} then []
    else
      var x := pick(s);
      var tail := Enumerate(s - {x}, pick);
      [x] + tail
  }

  /** The result of the inner loop: the candidates it removed from the
      working set, and its events. */
  datatype PassResult = PassResult(removed: set<string>, events: seq<Event>)

  /** The inner loop over the snapshot `cands` for a readable base: a CUI
      candidate is reported and removed; any other candidate is compared
      with the base and removed when it is a duplicate. */
  function CandidatePass(base: string, cands: seq<string>, isCui: string -> bool,
                         isDup: (string, string) -> bool): (p: PassResult)
    ensures forall c :: c in p.removed <==> c in cands && (isCui(c) || isDup(base, c))
    ensures forall n :: n in Subjects(p.events) <==> n in p.removed
    ensures forall c :: c in cands && c !in p.removed ==> Distinct(base, c) in p.events
    decreases |cands|
  {
    if |cands| == 0 then PassResult({}, [])
    else
      var c := cands[0];
      var rest := CandidatePass(base, cands[1..], isCui, isDup);
      assert forall x :: x in cands <==> x == c || x in cands[1..] by {
        assert cands == [c] + cands[1..];
      }
      var e := PassEvent(base, c, isCui, isDup);
      var events := [e] + rest.events;
      assert events[1..] == rest.events;
      assert Subjects(events) == (if e.Distinct? then [] else [c]) + Subjects(rest.events);
      PassResult(if e.Distinct? then rest.removed else {c} + rest.removed, events)
  }

  /** The event the inner loop records for one candidate. */
  function PassEvent(base: string, c: string, isCui: string -> bool, isDup: (string, string) -> bool): (e: Event)
    ensures e.Names() <= {base, c} && !e.Keep?
    ensures e.Distinct? <==> !isCui(c) && !isDup(base, c)
    ensures !isCui(base) ==> Justified(e, isCui, isDup)
    ensures e.IsComparison() ==> e.base == base && e.cand == c
  {
    if isCui(c) then Cui(c)
    else if isDup(base, c) then Dup(base, c)
    else Distinct(base, c)
  }

  /** The inner loop's events: none keeps a record, each names only the base
      and candidates, each comparison is against the base, and all of them
      agree with the oracles when the base is readable. */
  lemma {:induction false} CandidatePassEvents(base: string, cands: seq<string>, isCui: string -> bool,
                                                isDup: (string, string) -> bool)
    ensures var p := CandidatePass(base, cands, isCui, isDup);
      && (forall e :: e in p.events ==> !e.Keep? && e.Names() <= {base} + (set c | c in cands))
      && (!isCui(base) ==> forall e :: e in p.events ==> Justified(e, isCui, isDup))
      && (forall e :: e in p.events && e.IsComparison() ==> e.base == base)
    decreases |cands|
  {
    if |cands| > 0 {
      var c := cands[0];
      var rest := CandidatePass(base, cands[1..], isCui, isDup);
      CandidatePassEvents(base, cands[1..], isCui, isDup);
      var events := [PassEvent(base, c, isCui, isDup)] + rest.events;
      assert CandidatePass(base, cands, isCui, isDup).events == events;
      assert forall x :: x in cands[1..] ==> x in cands;
      assert forall e :: e in events ==> e == events[0] || e in rest.events;
    }
  }

  /** The inner loop compares the base with each candidate at most once, and
      settles each candidate at most once when the snapshot has no repeats. */
  lemma {:induction false} CandidatePassCounts(base: string, cands: seq<string>, isCui: string -> bool,
                                                isDup: (string, string) -> bool)
    ensures var p := CandidatePass(base, cands, isCui, isDup);
      && Comparisons(p.events) <= |cands|
      && (NoDup(cands) ==> NoDup(Subjects(p.events)))
    decreases |cands|
  {
    if |cands| > 0 {
      var c := cands[0];
      var rest := CandidatePass(base, cands[1..], isCui, isDup);
      CandidatePassCounts(base, cands[1..], isCui, isDup);
      var e := PassEvent(base, c, isCui, isDup);
      var events := [e] + rest.events;
      assert CandidatePass(base, cands, isCui, isDup).events == events;
      assert events[1..] == rest.events;
      if NoDup(cands) {
        NoDupTail(cands);
        assert Subjects(events) == (if e.Distinct? then [] else [c]) + Subjects(rest.events);
        if !e.Distinct? {
          assert c !in rest.removed;
          NoDupAppend([c], Subjects(rest.events));
        }
      }
    }
  }

  /** One iteration of the outer loop: its events and the working set it
      leaves behind. */
  datatype StepResult = StepResult(events: seq<Event>, remaining: set<string>)

  /** Pop a base; a CUI base is reported and compared with nothing; a
      readable base is kept and the inner loop runs over a snapshot of the
      rest. The base is never put back, so the working set strictly shrinks;
      a candidate leaves it exactly when it is CUI or a duplicate of the
      base. */
  function Step(images: set<string>, pick: set<string> -> string, isCui: string -> bool,
                isDup: (string, string) -> bool): (s: StepResult)
    requires ValidPick(pick) && images != {}
    ensures pick(images) in images && pick(images) !in s.remaining
    ensures s.remaining < images
    ensures isCui(pick(images)) ==> s.remaining == images - {pick(images)} && s.events == [Cui(pick(images))]
    ensures !isCui(pick(images)) ==> forall c :: c in s.remaining <==>
      c in images && c != pick(images) && !isCui(c) && !isDup(pick(images), c)
  {
    var base := pick(images);
    var rest := images - {base};
    if isCui(base) then StepResult([Cui(base)], rest)
    else
      var pass := CandidatePass(base, Enumerate(rest, pick), isCui, isDup);
      StepResult([Keep(base)] + pass.events, rest - pass.removed)
  }

  /** The whole `while images:` loop for one group. */
  function Sweep(images: set<string>, pick: set<string> -> string, isCui: string -> bool,
                 isDup: (string, string) -> bool): (t: seq<Event>)
    requires ValidPick(pick)
    ensures forall n :: n in Subjects(t) <==> n in images
    ensures NoDup(Subjects(t))
    ensures forall e :: e in t ==> Justified(e, isCui, isDup)
    ensures forall e :: e in t ==> e.Names() <= images
    decreases images
  {
    if images == {} then []
    else
      var step := Step(images, pick, isCui, isDup);
      var later := Sweep(step.remaining, pick, isCui, isDup);
      StepEventsSettleRemovedRecords(images, pick, isCui, isDup);
      SubjectsAppend(step.events, later);
      NoDupAppend(Subjects(step.events), Subjects(later));
      step.events + later
  }

  /** What the events of one step settle: the base and every candidate it
      removed, each once, all of them outside the working set it leaves; and
      every event agrees with the oracles and names only members of the
      working set. */
  lemma StepEventsSettleRemovedRecords(images: set<string>, pick: set<string> -> string,
                                       isCui: string -> bool, isDup: (string, string) -> bool)
    requires ValidPick(pick) && images != {}
    ensures var s := Step(images, pick, isCui, isDup);
      && (forall n :: n in Subjects(s.events) <==> n in images && n !in s.remaining)
      && NoDup(Subjects(s.events))
      && (forall e :: e in s.events ==> Justified(e, isCui, isDup))
      && (forall e :: e in s.events ==> e.Names() <= images)
  {
    var base := pick(images);
    var rest := images - {base};
    if !isCui(base) {
      var cands := Enumerate(rest, pick);
      var pass := CandidatePass(base, cands, isCui, isDup);
      CandidatePassEvents(base, cands, isCui, isDup);
      CandidatePassCounts(base, cands, isCui, isDup);
      var events := [Keep(base)] + pass.events;
      assert events[1..] == pass.events;
      assert Subjects(events) == [base] + Subjects(pass.events);
      NoDupAppend([base], Subjects(pass.events));
    }
  }

  lemma {:induction false} SubjectsAppend(a: seq<Event>, b: seq<Event>)
    ensures Subjects(a + b) == Subjects(a) + Subjects(b)
    decreases |a|
  {
    if |a| > 0 {
      assert (a + b)[1..] == a[1..] + b;
      SubjectsAppend(a[1..], b);
    } else {
      assert a + b == b;
    }
  }

  lemma {:induction false} ComparisonsAppend(a: seq<Event>, b: seq<Event>)
    ensures Comparisons(a + b) == Comparisons(a) + Comparisons(b)
    decreases |a|
  {
    if |a| > 0 {
      assert (a + b)[1..] == a[1..] + b;
      ComparisonsAppend(a[1..], b);
    } else {
      assert a + b == b;
    }
  }

  lemma NoDupAppend(a: seq<string>, b: seq<string>)
    requires NoDup(a) && NoDup(b)
    requires forall x :: x in a ==> x !in b
    ensures NoDup(a + b)
  {
    forall i, j | 0 <= i < j < |a + b|
      ensures (a + b)[i] != (a + b)[j]
    {
      if i < |a| && j >= |a| {
        assert (a + b)[i] in a;
        assert (a + b)[j] == b[j - |a|];
      }
    }
  }

  /** Dropping the head of a sequence without repeats leaves one without
      repeats that no longer holds the head. */
  lemma NoDupTail(s: seq<string>)
    requires |s| > 0 && NoDup(s)
    ensures s[0] !in s[1..] && NoDup(s[1..])
  {
    forall k | 0 <= k < |s[1..]|
      ensures s[1..][k] != s[0]
    {
      assert s[1..][k] == s[k + 1];
    }
    forall a, b | 0 <= a < b < |s[1..]|
      ensures s[1..][a] != s[1..][b]
    {
      assert s[1..][a] == s[a + 1] && s[1..][b] == s[b + 1];
    }
  }

  /** A subset has no more members. */
  lemma {:induction false} SubsetIsNotLarger(a: set<string>, b: set<string>)
    requires a <= b
    ensures |a| <= |b|
    decreases a
  {
    if a != {} {
      var x :| x in a;
      SubsetIsNotLarger(a - {x}, b - {x});
    }
  }

  /** A proper subset has fewer members. */
  lemma ProperSubsetIsSmaller(a: set<string>, b: set<string>)
    requires a < b
    ensures |a| < |b|
  {
    var x :| x in b && x !in a;
    SubsetIsNotLarger(a, b - {x});
  }

  /** One step compares its base with at most every other record. */
  lemma StepComparisonBound(images: set<string>, pick: set<string> -> string,
                            isCui: string -> bool, isDup: (string, string) -> bool)
    requires ValidPick(pick) && images != {}
    ensures Comparisons(Step(images, pick, isCui, isDup).events) <= |images| - 1
  {
    var base := pick(images);
    var rest := images - {base};
    var step := Step(images, pick, isCui, isDup);
    if isCui(base) {
      assert step.events[1..] == [];
    } else {
      var pass := CandidatePass(base, Enumerate(rest, pick), isCui, isDup);
      CandidatePassCounts(base, Enumerate(rest, pick), isCui, isDup);
      var events := [Keep(base)] + pass.events;
      assert events[1..] == pass.events;
    }
  }

  /** The number of unordered pairs among n records. */
  function Pairs(n: nat): (p: nat)
    ensures 2 * p == n * (n - 1)
  {
    if n == 0 then 0
    else
      var p := Pairs(n - 1) + (n - 1);
      assert (n - 1) * (n - 2) + 2 * (n - 1) == n * (n - 1);
      p
  }

  /** More records never make fewer pairs. */
  lemma {:induction false} PairsMonotone(m: nat, n: nat)
    requires m <= n
    ensures Pairs(m) <= Pairs(n)
    decreases n
  {
    if m < n {
      PairsMonotone(m, n - 1);
    }
  }

  /** n - 1 comparisons now and at most Pairs(m) later, for m < n, stay
      within Pairs(n). */
  lemma PairCountStep(n: nat, m: nat, now: nat, later: nat)
    requires m < n && now <= n - 1 && later <= Pairs(m)
    ensures now + later <= Pairs(n)
  {
    PairsMonotone(m, n - 1);
  }

  /** The sweep makes at most n(n-1)/2 comparisons for a group of n
      records. That each pair is judged at most once is proved for the
      sweep as the code writes it, as `ShrinkingBase.JudgedOnce`. */
  lemma {:induction false} SweepComparisonBound(images: set<string>, pick: set<string> -> string,
                                                 isCui: string -> bool, isDup: (string, string) -> bool)
    requires ValidPick(pick)
    ensures Comparisons(Sweep(images, pick, isCui, isDup)) <= Pairs(|images|)
    decreases images
  {
    if images != {} {
      var step := Step(images, pick, isCui, isDup);
      var later := Sweep(step.remaining, pick, isCui, isDup);
      SweepUnfolds(images, pick, isCui, isDup);
      SweepComparisonBound(step.remaining, pick, isCui, isDup);
      ComparisonsAppend(step.events, later);
      StepComparisonBound(images, pick, isCui, isDup);
      ProperSubsetIsSmaller(step.remaining, images);
      PairCountStep(|images|, |step.remaining|, Comparisons(step.events), Comparisons(later));
    }
  }

  /** A group with a single record makes no comparison, and an empty group
      makes no comparison and reports nothing. */
  lemma SmallGroupsMakeNoComparisons(x: string, pick: set<string> -> string,
                                     isCui: string -> bool, isDup: (string, string) -> bool)
    requires ValidPick(pick)
    ensures Comparisons(Sweep({x}, pick, isCui, isDup)) == 0
    ensures Sweep({}, pick, isCui, isDup) == []
  {
    SweepComparisonBound({x}, pick, isCui, isDup);
  }

  /** Every comparison is made against a base that was kept (never a CUI
      one), and every readable record is either kept as a base or removed as
      the duplicate of a kept base. */
  lemma {:induction false} ComparisonsUseKeptBases(images: set<string>, pick: set<string> -> string,
                                                    isCui: string -> bool, isDup: (string, string) -> bool)
    requires ValidPick(pick)
    ensures var t := Sweep(images, pick, isCui, isDup);
      forall e :: e in t && e.IsComparison() ==> Keep(e.base) in t
    decreases images
  {
    if images != {} {
      var base := pick(images);
      var step := Step(images, pick, isCui, isDup);
      var later := Sweep(step.remaining, pick, isCui, isDup);
      ComparisonsUseKeptBases(step.remaining, pick, isCui, isDup);
      if !isCui(base) {
        var pass := CandidatePass(base, Enumerate(images - {base}, pick), isCui, isDup);
        CandidatePassEvents(base, Enumerate(images - {base}, pick), isCui, isDup);
        assert step.events == [Keep(base)] + pass.events;
        assert step.events[0] == Keep(base);
      }
    }
  }

  /** Every readable record ends up either kept or removed as a duplicate,
      and every CUI record is reported as CUI. */
  lemma EveryRecordSettled(images: set<string>, pick: set<string> -> string,
                           isCui: string -> bool, isDup: (string, string) -> bool, n: string)
    requires ValidPick(pick) && n in images
    ensures var t := Sweep(images, pick, isCui, isDup);
      && (isCui(n) ==> Cui(n) in t)
      && (!isCui(n) ==> Keep(n) in t || exists b :: Dup(b, n) in t)
  {
    var t := Sweep(images, pick, isCui, isDup);
    SubjectInTrace(t, n);
    var e :| e in t && !e.Distinct? && e.Subject() == n;
    assert Justified(e, isCui, isDup);
  }

  /** A settled record is the subject of some event of the trace. */
  lemma {:induction false} SubjectInTrace(t: seq<Event>, n: string)
    requires n in Subjects(t)
    ensures exists e :: e in t && !e.Distinct? && e.Subject() == n
    decreases |t|
  {
    if !t[0].Distinct? && t[0].Subject() == n {
      assert t[0] in t;
    } else {
      SubjectInTrace(t[1..], n);
      var e :| e in t[1..] && !e.Distinct? && e.Subject() == n;
      assert e in t;
    }
  }

  /** Of two records kept one after the other in `t`, the later one was
      compared with the earlier one and judged distinct. */
  predicate KeptPairsDistinct(t: seq<Event>, isDup: (string, string) -> bool)
  {
    forall i, j :: 0 <= i < j < |t| && t[i].Keep? && t[j].Keep? ==>
      Distinct(t[i].name, t[j].name) in t && !isDup(t[i].name, t[j].name)
  }

  /** The greedy clustering keeps no duplicate pair among its bases: of two
      records kept one after the other, the later one was compared with the
      earlier one and judged distinct. */
  lemma {:induction false} KeptBasesAreNotDuplicates(images: set<string>, pick: set<string> -> string,
                                                      isCui: string -> bool, isDup: (string, string) -> bool)
    requires ValidPick(pick)
    ensures KeptPairsDistinct(Sweep(images, pick, isCui, isDup), isDup)
    decreases images
  {
    if images != {} {
      var base := pick(images);
      var step := Step(images, pick, isCui, isDup);
      var later := Sweep(step.remaining, pick, isCui, isDup);
      SweepUnfolds(images, pick, isCui, isDup);
      KeptBasesAreNotDuplicates(step.remaining, pick, isCui, isDup);
      StepKeepsOnlyItsBase(images, pick, isCui, isDup);
      if step.events[0].Keep? {
        forall e | e in later && e.Keep?
          ensures Distinct(base, e.name) in step.events && !isDup(base, e.name)
        {
          assert e == Keep(e.name);
          BaseJudgesLaterKeeps(images, pick, isCui, isDup, e.name);
        }
      }
      KeptPairsConcat(step.events, later, isDup);
    }
  }

  /** A trace whose only Keep comes first, followed by a trace with distinct
      kept pairs whose every kept record the first one was judged distinct
      from, has distinct kept pairs. */
  lemma KeptPairsConcat(a: seq<Event>, b: seq<Event>, isDup: (string, string) -> bool)
    requires KeptPairsDistinct(b, isDup)
    requires forall k :: 0 < k < |a| ==> !a[k].Keep?
    requires |a| > 0 && a[0].Keep? ==>
      forall e :: e in b && e.Keep? ==> Distinct(a[0].name, e.name) in a && !isDup(a[0].name, e.name)
    ensures KeptPairsDistinct(a + b, isDup)
  {
    var t := a + b;
    forall i, j | 0 <= i < j < |t| && t[i].Keep? && t[j].Keep?
      ensures Distinct(t[i].name, t[j].name) in t && !isDup(t[i].name, t[j].name)
    {
      if i >= |a| {
        assert t[i] == b[i - |a|] && t[j] == b[j - |a|];
        assert Distinct(t[i].name, t[j].name) in b;
      } else {
        assert t[j] == b[j - |a|];
        assert t[j] in b;
      }
    }
  }

  /** The sweep of a non-empty set is its first step followed by the sweep
      of what that step leaves. */
  lemma SweepUnfolds(images: set<string>, pick: set<string> -> string,
                     isCui: string -> bool, isDup: (string, string) -> bool)
    requires ValidPick(pick) && images != {}
    ensures var step := Step(images, pick, isCui, isDup);
      Sweep(images, pick, isCui, isDup) == step.events + Sweep(step.remaining, pick, isCui, isDup)
  {
  }

  /** A record kept after a step was a candidate of that step's readable
      base, compared with it and judged distinct. */
  lemma BaseJudgesLaterKeeps(images: set<string>, pick: set<string> -> string,
                             isCui: string -> bool, isDup: (string, string) -> bool, k: string)
    requires ValidPick(pick) && images != {} && !isCui(pick(images))
    requires Keep(k) in Sweep(Step(images, pick, isCui, isDup).remaining, pick, isCui, isDup)
    ensures Distinct(pick(images), k) in Step(images, pick, isCui, isDup).events
    ensures !isDup(pick(images), k)
  {
    var base := pick(images);
    var step := Step(images, pick, isCui, isDup);
    assert Keep(k).Names() <= step.remaining;
    var cands := Enumerate(images - {base}, pick);
    var pass := CandidatePass(base, cands, isCui, isDup);
    assert step.events == [Keep(base)] + pass.events;
    assert k in cands && k !in pass.removed;
  }

  /** The events of one step start with one event for the popped base, and
      only that one can be a Keep: it is when the base is readable. */
  lemma StepKeepsOnlyItsBase(images: set<string>, pick: set<string> -> string,
                             isCui: string -> bool, isDup: (string, string) -> bool)
    requires ValidPick(pick) && images != {}
    ensures var s := Step(images, pick, isCui, isDup);
      && |s.events| > 0
      && (forall k :: 0 < k < |s.events| ==> !s.events[k].Keep?)
      && (s.events[0].Keep? <==> !isCui(pick(images)))
  {
    var base := pick(images);
    var s := Step(images, pick, isCui, isDup);
    if !isCui(base) {
      var pass := CandidatePass(base, Enumerate(images - {base}, pick), isCui, isDup);
      CandidatePassEvents(base, Enumerate(images - {base}, pick), isCui, isDup);
      assert s.events == [Keep(base)] + pass.events;
      forall k | 0 < k < |s.events|
        ensures !s.events[k].Keep?
      {
        assert s.events[k] == pass.events[k - 1];
        assert s.events[k] in pass.events;
      }
    }
  }

  /** Distinct keys hold disjoint groups. */
  predicate GroupsDisjoint(groups: map<string, set<string>>)
  {
    forall a, b :: a in groups && b in groups && a != b ==> groups[a] !! groups[b]
  }

  /** The outer `for camera_id, images in grouped_images.items()` loop: every
      group swept on its own, in the dictionary's key order `ids`, the traces
      one after the other. */
  function SweepGroups(ids: seq<string>, groups: map<string, set<string>>, pick: set<string> -> string,
                       isCui: string -> bool, isDup: (string, string) -> bool): (t: seq<Event>)
    requires ValidPick(pick)
    requires forall id :: id in ids ==> id in groups
    ensures forall e :: e in t ==> Justified(e, isCui, isDup)
    decreases |ids|
  {
    if |ids| == 0 then []
    else
      var first := Sweep(groups[ids[0]], pick, isCui, isDup);
      var others := SweepGroups(ids[1..], groups, pick, isCui, isDup);
      assert forall e :: e in first + others ==> e in first || e in others;
      first + others
  }

  /** The groups' sweeps stay inside their groups: every event names records
      of a single group, and the records settled are exactly the members of
      the groups swept. */
  lemma {:induction false} SweepGroupsStayInGroups(ids: seq<string>, groups: map<string, set<string>>,
                                                    pick: set<string> -> string, isCui: string -> bool,
                                                    isDup: (string, string) -> bool)
    requires ValidPick(pick)
    requires forall id :: id in ids ==> id in groups
    ensures forall e :: e in SweepGroups(ids, groups, pick, isCui, isDup) ==>
      exists id :: id in ids && e.Names() <= groups[id]
    ensures forall n :: n in Subjects(SweepGroups(ids, groups, pick, isCui, isDup)) <==>
      exists id :: id in ids && n in groups[id]
    decreases |ids|
  {
    if |ids| > 0 {
      var first := Sweep(groups[ids[0]], pick, isCui, isDup);
      var others := SweepGroups(ids[1..], groups, pick, isCui, isDup);
      var t := SweepGroups(ids, groups, pick, isCui, isDup);
      assert t == first + others;
      assert forall id :: id in ids <==> id == ids[0] || id in ids[1..] by {
        assert ids == [ids[0]] + ids[1..];
      }
      SweepGroupsStayInGroups(ids[1..], groups, pick, isCui, isDup);
      SubjectsAppend(first, others);
      forall e | e in t
        ensures exists id :: id in ids && e.Names() <= groups[id]
      {
        if e in first {
          assert ids[0] in ids && e.Names() <= groups[ids[0]];
        } else {
          assert e in others;
        }
      }
      forall n
        ensures n in Subjects(t) <==> exists id :: id in ids && n in groups[id]
      {
        if n in Subjects(first) {
          assert ids[0] in ids && n in groups[ids[0]];
        } else if n in Subjects(others) {
          var id :| id in ids[1..] && n in groups[id];
          assert id in ids;
        }
      }
    }
  }

  /** Sweeping groups that share no record, each once, settles every record
      at most once. */
  lemma {:induction false} SweepGroupsSettleOnce(ids: seq<string>, groups: map<string, set<string>>,
                                                  pick: set<string> -> string, isCui: string -> bool,
                                                  isDup: (string, string) -> bool)
    requires ValidPick(pick)
    requires forall id :: id in ids ==> id in groups
    requires NoDup(ids) && GroupsDisjoint(groups)
    ensures NoDup(Subjects(SweepGroups(ids, groups, pick, isCui, isDup)))
    decreases |ids|
  {
    if |ids| > 0 {
      var first := Sweep(groups[ids[0]], pick, isCui, isDup);
      var others := SweepGroups(ids[1..], groups, pick, isCui, isDup);
      assert SweepGroups(ids, groups, pick, isCui, isDup) == first + others;
      NoDupTail(ids);
      assert forall id :: id in ids[1..] ==> id in ids;
      SweepGroupsSettleOnce(ids[1..], groups, pick, isCui, isDup);
      SweepGroupsStayInGroups(ids[1..], groups, pick, isCui, isDup);
      SubjectsAppend(first, others);
      forall x | x in Subjects(first)
        ensures x !in Subjects(others)
      {
        assert x in groups[ids[0]];
        assert forall id :: id in ids[1..] ==> id != ids[0] && x !in groups[id];
      }
      NoDupAppend(Subjects(first), Subjects(others));
    }
  }

  /** The whole run on a folder: grouping by camera id followed by the
      per-group sweeps. Every file is settled exactly once, and a comparison
      only ever pairs two files of the same camera: groups never interact. */
  lemma SweepFolder(files: seq<string>, ids: seq<string>, pick: set<string> -> string,
                    isCui: string -> bool, isDup: (string, string) -> bool)
    requires ValidPick(pick)
    requires NoDup(ids) && forall id :: id in ids <==> id in GroupByCameraId(files)
    ensures var t := SweepGroups(ids, GroupByCameraId(files), pick, isCui, isDup);
      && (forall n :: n in Subjects(t) <==> n in files)
      && NoDup(Subjects(t))
      && (forall e :: e in t && e.IsComparison() ==> CameraId(e.base) == CameraId(e.cand))
  {
    var groups := GroupByCameraId(files);
    CameraGroupsDisjoint(files);
    SweepGroupsSettleOnce(ids, groups, pick, isCui, isDup);
    SweepFolderSettlesFiles(files, ids, pick, isCui, isDup);
    SweepFolderPairsSameCamera(files, ids, pick, isCui, isDup);
  }

  /** Files of different cameras never share a group. */
  lemma CameraGroupsDisjoint(files: seq<string>)
    ensures GroupsDisjoint(GroupByCameraId(files))
  {
    var groups := GroupByCameraId(files);
    forall a, b | a in groups && b in groups && a != b
      ensures groups[a] !! groups[b]
    {
      forall f | f in groups[a]
        ensures f !in groups[b]
      {
        assert CameraId(f) == a;
      }
    }
  }

  /** Sweeping every group of a folder settles exactly the folder's files. */
  lemma SweepFolderSettlesFiles(files: seq<string>, ids: seq<string>, pick: set<string> -> string,
                                isCui: string -> bool, isDup: (string, string) -> bool)
    requires ValidPick(pick)
    requires forall id :: id in ids <==> id in GroupByCameraId(files)
    ensures forall n :: n in Subjects(SweepGroups(ids, GroupByCameraId(files), pick, isCui, isDup)) <==> n in files
  {
    var groups := GroupByCameraId(files);
    var t := SweepGroups(ids, groups, pick, isCui, isDup);
    SweepGroupsStayInGroups(ids, groups, pick, isCui, isDup);
    forall n
      ensures n in Subjects(t) <==> n in files
    {
      if n in files {
        assert CameraId(n) in ids && n in groups[CameraId(n)];
      }
      if n in Subjects(t) {
        var id :| id in ids && n in groups[id];
        assert id in groups;
      }
    }
  }

  /** Every comparison of a folder's sweep pairs two files of one camera. */
  lemma SweepFolderPairsSameCamera(files: seq<string>, ids: seq<string>, pick: set<string> -> string,
                                   isCui: string -> bool, isDup: (string, string) -> bool)
    requires ValidPick(pick)
    requires forall id :: id in ids <==> id in GroupByCameraId(files)
    ensures forall e :: e in SweepGroups(ids, GroupByCameraId(files), pick, isCui, isDup) && e.IsComparison() ==>
      CameraId(e.base) == CameraId(e.cand)
  {
    var groups := GroupByCameraId(files);
    var t := SweepGroups(ids, groups, pick, isCui, isDup);
    SweepGroupsStayInGroups(ids, groups, pick, isCui, isDup);
    forall e | e in t && e.IsComparison()
      ensures CameraId(e.base) == CameraId(e.cand)
    {
      var id :| id in ids && e.Names() <= groups[id];
      assert e.base in groups[id] && e.cand in groups[id];
    }
  }
}

=== FILE: dispatch.dfy ===
/** Dispatch of the sweep's dispositions to the filesystem, for the two run
    actions: `remove` deletes CUI records and duplicates; `move` moves CUI
    records into the CUI folder, and for each duplicate copies the base
    (unless already there) and moves the candidate into the base's DUP
    folder. The filesystem is a map from paths to file contents. */
module Dispatch {
  import opened DedupSweep

  datatype Option<T> = None | Some(value: T)

  /** The run parameter. */
  datatype Action = Remove | Move

  /** The working folder, its `CUI` subfolder, and `DUP/<stem of base>`
      (the stem is identified here by the base's own name). */
  datatype Folder = Root | CuiFolder | DupFolder(base: string)

  datatype Path = Path(folder: Folder, name: string)

  /** The filesystem primitives: `os.remove`, move_file and copy_file on a
      file of the working folder. */
  datatype FsOp = Delete(name: string) | MoveTo(name: string, dest: Folder) | CopyTo(name: string, dest: Folder)

  /** The operations the source performs for one disposition. Exactly the
      CUI and duplicate events act; the last operation takes the subject out
      of the working folder, and any earlier one only copies the base of a
      duplicate into that base's DUP folder. */
  function Dispatch(action: Action, e: Event): (ops: seq<FsOp>)
    ensures ops == [] <==> e.Keep? || e.Distinct?
    ensures ops != [] ==> ops[|ops| - 1].name == e.Subject() && !ops[|ops| - 1].CopyTo?
    ensures ops != [] && action == Move ==> ops[|ops| - 1].MoveTo?
    ensures forall k :: 0 <= k < |ops| - 1 ==> e.Dup? && ops[k] == CopyTo(e.base, DupFolder(e.base))
    ensures forall k :: 0 <= k < |ops| && ops[k].MoveTo? ==> ops[k].dest == (if e.Dup? then DupFolder(e.base) else CuiFolder)
    ensures action == Remove ==> ops == (if e.Cui? || e.Dup? then [Delete(e.Subject())] else [])
    ensures action == Move && e.Dup? ==> |ops| == 2
    ensures action == Move && e.Cui? ==> |ops| == 1
  {
    match e
    case Cui(n) => if action == Remove then [Delete(n)] else [MoveTo(n, CuiFolder)]
    case Dup(b, c) =>
      if action == Remove then [Delete(c)]
      else [CopyTo(b, DupFolder(b)), MoveTo(c, DupFolder(b))]
    case Keep(_) => []
    case Distinct(_, _) => []
  }

  /** copy_file: nothing when the destination exists; otherwise the source is
      copied, and a missing source is an error (None). */
  function CopyIfAbsent<C>(fs: map<Path, C>, src: Path, dst: Path): (r: Option<map<Path, C>>)
    ensures dst in fs ==> r == Some(fs)
    ensures dst !in fs && src !in fs ==> r == None
    ensures r.Some? ==> dst in r.value && r.value.Keys == fs.Keys + {dst}
    ensures r.Some? ==> forall p :: p in fs ==> r.value[p] == fs[p]
    ensures r.Some? && dst !in fs ==> r.value[dst] == fs[src]
    ensures r.Some? <==> dst in fs || src in fs
    ensures r.Some? && dst !in fs ==> r.value == fs[dst := fs[src]]
  {
    if dst in fs then Some(fs)
    else if src in fs then Some(fs[dst := fs[src]])
    else None
  }

  /** Copying twice is copying once: the second copy finds the file and
      changes nothing. */
  lemma CopyIsIdempotent<C>(fs: map<Path, C>, src: Path, dst: Path)
    requires CopyIfAbsent(fs, src, dst).Some?
    ensures CopyIfAbsent(CopyIfAbsent(fs, src, dst).value, src, dst) == CopyIfAbsent(fs, src, dst)
  {
  }

  /** One primitive on the working folder; a missing source file is an
      error, as the source's `os.remove` and `shutil.move` raise. */
  function ApplyOp<C>(fs: map<Path, C>, op: FsOp): (r: Option<map<Path, C>>)
    ensures r.Some? <==> (op.CopyTo? && Path(op.dest, op.name) in fs) || Path(Root, op.name) in fs
    ensures r.Some? && op.Delete? ==> r.value == fs - {Path(Root, op.name)}
    ensures r.Some? ==> forall p :: p in fs && p.folder != Root ==> p in r.value
    ensures r.Some? ==> forall p :: p in r.value && p.folder == Root ==> p in fs && r.value[p] == fs[p]
  {
    var src := Path(Root, op.name);
    match op
    case Delete(n) => if src in fs then Some(fs - {src}) else None
    case MoveTo(n, d) => if src in fs then Some((fs - {src})[Path(d, n) := fs[src]]) else None
    case CopyTo(n, d) => CopyIfAbsent(fs, src, Path(d, n))
  }

  /** A sequence of primitives, stopping at the first error. No path outside
      the working folder disappears, no file appears in the working folder
      or changes there, and deletions alone change nothing outside it. */
  function ApplyOps<C>(fs: map<Path, C>, ops: seq<FsOp>): (r: Option<map<Path, C>>)
    ensures r.Some? ==> forall p :: p in fs && p.folder != Root ==> p in r.value
    ensures r.Some? ==> forall p :: p in r.value && p.folder == Root ==> p in fs && r.value[p] == fs[p]
    ensures r.Some? && (forall k :: 0 <= k < |ops| ==> ops[k].Delete?) ==> OutsideRootUnchanged(fs, r.value)
    decreases |ops|
  {
    if |ops| == 0 then Some(fs)
    else
      match ApplyOp(fs, ops[0])
      case None => None
      case Some(fs1) => ApplyOps(fs1, ops[1..])
  }

  /** The dispositions of a whole trace, in order. No path outside the
      working folder disappears; under `remove` nothing outside it changes at
      all; and a trace that disposes of nothing (only kept bases and distinct
      pairs) leaves the folder as it was. */
  function Execute<C>(action: Action, fs: map<Path, C>, t: seq<Event>): (r: Option<map<Path, C>>)
    ensures r.Some? ==> forall p :: p in fs && p.folder != Root ==> p in r.value
    ensures r.Some? && action == Remove ==> OutsideRootUnchanged(fs, r.value)
    ensures (forall e :: e in t ==> e.Keep? || e.Distinct?) ==> r == Some(fs)
    decreases |t|
  {
    if |t| == 0 then Some(fs)
    else
      match ApplyOps(fs, Dispatch(action, t[0]))
      case None => None
      case Some(fs1) => Execute(action, fs1, t[1..])
  }

  /** The working folder's files are the ones the sweep keeps, with their
      contents. */
  ghost predicate RootAfter<C>(before: map<Path, C>, after: map<Path, C>, removed: set<string>)
  {
    && (forall n :: Path(Root, n) in after <==> Path(Root, n) in before && n !in removed)
    && (forall n :: Path(Root, n) in after ==> after[Path(Root, n)] == before[Path(Root, n)])
  }

  /** Every path outside the working folder is present afterwards exactly
      when it was before, with the same contents. */
  ghost predicate OutsideRootUnchanged<C>(before: map<Path, C>, after: map<Path, C>)
  {
    forall p: Path :: p.folder != Root ==> (p in after <==> p in before) && (p in after ==> after[p] == before[p])
  }

  /** One event of a trace, run against a folder where its records still are:
      it succeeds and takes exactly its removed record out of the working
      folder; under `remove` it touches nothing else. */
  lemma ExecuteOne<C>(action: Action, fs: map<Path, C>, e: Event)
    requires (e.Cui? || e.Dup?) ==> Path(Root, e.Subject()) in fs
    requires e.Dup? ==> Path(Root, e.base) in fs && e.base != e.cand
    ensures ApplyOps(fs, Dispatch(action, e)).Some?
    ensures var fs1 := ApplyOps(fs, Dispatch(action, e)).value;
      RootAfter(fs, fs1, if e.Cui? || e.Dup? then {e.Subject()} else {})
    ensures action == Remove ==> OutsideRootUnchanged(fs, ApplyOps(fs, Dispatch(action, e)).value)
  {
    var ops := Dispatch(action, e);
    if e.Dup? && action == Move {
      var dst := Path(DupFolder(e.base), e.base);
      var fs1 := CopyIfAbsent(fs, Path(Root, e.base), dst).value;
      assert ApplyOp(fs, ops[0]) == Some(fs1);
      assert ApplyOps(fs, ops) == ApplyOps(fs1, ops[1..]);
      var src := Path(Root, e.cand);
      assert src in fs1;
      var fs2 := (fs1 - {src})[Path(DupFolder(e.base), e.cand) := fs1[src]];
      assert ApplyOp(fs1, ops[1]) == Some(fs2);
      assert ops[1..][0] == ops[1] && ops[1..][1..] == [];
      assert ApplyOps(fs1, ops[1..]) == ApplyOps(fs2, []);
      forall n
        ensures Path(Root, n) in fs2 <==> Path(Root, n) in fs && n != e.cand
      {
        assert Path(Root, n) in fs1 <==> Path(Root, n) in fs;
      }
    } else if ops != [] {
      assert ops[1..] == [];
    }
  }

  /** Executing the trace of a sweep: every disposition finds its file, and
      the working folder ends up holding exactly the records that were not
      removed (under `remove`, nothing outside it changes). Preconditions:
      each record is settled once, every removed record and every base of a
      duplicate is in the folder, and no base is itself removed. */
  lemma {:induction false} ExecuteTrace<C>(action: Action, fs: map<Path, C>, t: seq<Event>)
    requires NoDup(Subjects(t))
    requires forall n :: n in Removed(t) ==> Path(Root, n) in fs
    requires forall e :: e in t && e.Dup? ==> Path(Root, e.base) in fs && e.base !in Removed(t)
    ensures Execute(action, fs, t).Some?
    ensures RootAfter(fs, Execute(action, fs, t).value, Removed(t))
    ensures action == Remove ==> OutsideRootUnchanged(fs, Execute(action, fs, t).value)
    decreases |t|
  {
    if |t| > 0 {
      var e := t[0];
      var rest := t[1..];
      assert forall x :: x in t <==> x == e || x in rest by {
        assert t == [e] + rest;
      }
      var gone: set<string> := if e.Cui? || e.Dup? then {e.Subject()} else {};
      assert Removed(t) == gone + Removed(rest);
      RemovedOrKept(t);
      SubjectsOfRestAreFree(t);
      ExecuteOne(action, fs, e);
      var fs1 := ApplyOps(fs, Dispatch(action, e)).value;
      ExecuteTrace(action, fs1, rest);
    }
  }

  /** The first event's record is not settled again later. */
  lemma SubjectsOfRestAreFree(t: seq<Event>)
    requires |t| > 0 && NoDup(Subjects(t))
    ensures NoDup(Subjects(t[1..]))
    ensures !t[0].Distinct? ==> t[0].Subject() !in Subjects(t[1..])
    ensures !t[0].Distinct? ==> t[0].Subject() !in Removed(t[1..])
  {
    var s := Subjects(t);
    var r := Subjects(t[1..]);
    if t[0].Distinct? {
      assert s == r;
    } else {
      assert s == [t[0].Subject()] + r;
      assert s[1..] == r;
      NoDupTail(s);
      RemovedOrKept(t[1..]);
    }
  }

  /** The end state of a group's sweep: starting from a working folder that
      holds every record of the group, every disposition succeeds and the
      folder keeps exactly the records popped as readable bases; under
      `remove` nothing outside the working folder changes. */
  lemma SweepLeavesOnlyBases<C>(action: Action, fs: map<Path, C>, images: set<string>,
                                pick: set<string> -> string, isCui: string -> bool,
                                isDup: (string, string) -> bool)
    requires ValidPick(pick)
    requires forall n :: n in images ==> Path(Root, n) in fs
    ensures var t := Sweep(images, pick, isCui, isDup);
      && Execute(action, fs, t).Some?
      && (forall n :: n in images ==> (Path(Root, n) in Execute(action, fs, t).value <==> Keep(n) in t))
      && (action == Remove ==> OutsideRootUnchanged(fs, Execute(action, fs, t).value))
  {
    var t := Sweep(images, pick, isCui, isDup);
    RemovedOrKept(t);
    ComparisonsUseKeptBases(images, pick, isCui, isDup);
    forall e | e in t && e.Dup?
      ensures Path(Root, e.base) in fs && e.base !in Removed(t)
    {
      assert e.IsComparison();
      assert Keep(e.base) in t;
      assert e.base in e.Names();
    }
    ExecuteTrace(action, fs, t);
  }
}

=== FILE: interview.dfy ===
/** The whole run of main: group the folder's files by camera id, sweep
    every group with the real classifiers in place of the oracles (a record
    is CUI when it cannot be read or is below the resolution floor; a pair is
    a duplicate when its score is below the threshold of its common size),
    and carry the dispositions out on the folder. The run as written judges
    each candidate against a base that earlier candidates may have shrunk;
    the run the loop's comments describe judges every pair on its own two
    sizes. Both are modelled, and both end in the same kind of folder. */
module Interview {
  import opened ResolutionPolicy
  import opened PairGeometry
  import opened ChangeScorer
  import opened PairComparison
  import opened CameraGroups
  import opened DedupSweep
  import opened Dispatch
  import opened ShrinkingBase

  /** The duplicate test of a pair judged on its own: the base `b` at its
      loaded size against the readable candidate `c`. */
  function DupTest(load: string -> Loaded, contours: (string, string) -> seq<Area>): (isDup: (string, string) -> bool)
    ensures forall b, c :: load(b).Image? && load(c).Image? ==>
      (isDup(b, c) <==> JudgePair(load(b).dims, load(c).dims, contours(b, c)).duplicate)
  {
    (b, c) => load(b).Image? && load(c).Image? && JudgePair(load(b).dims, load(c).dims, contours(b, c)).duplicate
  }

  /** What an event says about the records it names: a CUI record is CUI, a
      kept base is readable and above the floor, and a comparison is made
      between two such records. */
  predicate Classified(e: Event, load: string -> Loaded)
  {
    match e
    case Cui(n) => IsCui(load(n))
    case Keep(n) => !IsCui(load(n))
    case Dup(b, c) => !IsCui(load(b)) && !IsCui(load(c))
    case Distinct(b, c) => !IsCui(load(b)) && !IsCui(load(c))
  }

  /** An event agrees with the per-pair classifiers: it is classified, and a
      comparison's outcome is the verdict on the two loaded sizes. */
  predicate AgreesWithClassifiers(e: Event, load: string -> Loaded, contours: (string, string) -> seq<Area>)
  {
    && Classified(e, load)
    && (e.IsComparison() ==>
          (e.Dup? <==> JudgePair(load(e.base).dims, load(e.cand).dims, contours(e.base, e.cand)).duplicate))
  }

  /** The run as written: the shrinking sweep of every group, in the
      dictionary's key order `ids`. */
  function ShrinkingGroups(ids: seq<string>, groups: map<string, set<string>>, pick: set<string> -> string,
                           load: string -> Loaded, contours: (string, string) -> seq<Area>): seq<Event>
    requires ValidPick(pick)
    requires forall id :: id in ids ==> id in groups
    decreases |ids|
  {
    if |ids| == 0 then []
    else
      assert forall id :: id in ids[1..] ==> id in ids;
      ShrinkingSweep(groups[ids[0]], pick, load, contours) + ShrinkingGroups(ids[1..], groups, pick, load, contours)
  }

  /** The verdicts the run as written gives, read off the trace of the
      camera group of the base: each group's trace records exactly them. */
  function RunVerdicts(files: seq<string>, pick: set<string> -> string, load: string -> Loaded,
                       contours: (string, string) -> seq<Area>): (isDup: (string, string) -> bool)
    requires ValidPick(pick)
    ensures var groups := GroupByCameraId(files);
      forall id :: id in groups ==> VerdictsOf(ShrinkingSweep(groups[id], pick, load, contours), isDup)
  {
    var groups := GroupByCameraId(files);
    var traces := map id | id in groups :: ShrinkingSweep(groups[id], pick, load, contours);
    var isDup := (b, c) => CameraId(b) in traces && Dup(b, c) in traces[CameraId(b)];
    assert forall id :: id in groups ==> VerdictsOf(traces[id], isDup) by {
      forall id | id in groups
        ensures VerdictsOf(traces[id], isDup)
      {
        var t := traces[id];
        JudgedOnceHasVerdicts(t);
        forall e | e in t && e.IsComparison()
          ensures CameraId(e.base) == id
        {
          assert e.base in e.Names();
        }
      }
    }
    isDup
  }

  /** Sweeping groups as written is sweeping them with any oracle that
      agrees with every group's recorded verdicts. */
  lemma {:induction false} ShrinkingGroupsIsOracleSweep(ids: seq<string>, groups: map<string, set<string>>,
                                                         pick: set<string> -> string, load: string -> Loaded,
                                                         contours: (string, string) -> seq<Area>,
                                                         isDup: (string, string) -> bool)
    requires ValidPick(pick)
    requires forall id :: id in ids ==> id in groups
    requires forall id :: id in ids ==> VerdictsOf(ShrinkingSweep(groups[id], pick, load, contours), isDup)
    ensures ShrinkingGroups(ids, groups, pick, load, contours) == SweepGroups(ids, groups, pick, CuiTest(load), isDup)
    decreases |ids|
  {
    if |ids| > 0 {
      assert forall id :: id in ids[1..] ==> id in ids;
      ShrinkingSweepIsOracleSweep(groups[ids[0]], pick, load, contours, isDup);
      ShrinkingGroupsIsOracleSweep(ids[1..], groups, pick, load, contours, isDup);
    }
  }

  /** The disposition trace of the whole folder as the source writes it. */
  function RunTrace(files: seq<string>, ids: seq<string>, pick: set<string> -> string,
                    load: string -> Loaded, contours: (string, string) -> seq<Area>): (t: seq<Event>)
    requires ValidPick(pick)
    requires forall id :: id in ids ==> id in GroupByCameraId(files)
    ensures forall e :: e in t ==> Classified(e, load)
    ensures t == SweepGroups(ids, GroupByCameraId(files), pick, CuiTest(load), RunVerdicts(files, pick, load, contours))
  {
    var groups := GroupByCameraId(files);
    var isDup := RunVerdicts(files, pick, load, contours);
    ShrinkingGroupsIsOracleSweep(ids, groups, pick, load, contours, isDup);
    var t := SweepGroups(ids, groups, pick, CuiTest(load), isDup);
    assert forall e :: e in t ==> Classified(e, load) by {
      forall e | e in t
        ensures Classified(e, load)
      {
        assert Justified(e, CuiTest(load), isDup);
      }
    }
    ShrinkingGroups(ids, groups, pick, load, contours)
  }

  /** The disposition trace of the whole folder when every pair is judged on
      its own two sizes, as the loop's comments describe. */
  function IntendedTrace(files: seq<string>, ids: seq<string>, pick: set<string> -> string,
                         load: string -> Loaded, contours: (string, string) -> seq<Area>): (t: seq<Event>)
    requires ValidPick(pick)
    requires forall id :: id in ids ==> id in GroupByCameraId(files)
    ensures forall e :: e in t ==> AgreesWithClassifiers(e, load, contours)
  {
    var t := SweepGroups(ids, GroupByCameraId(files), pick, CuiTest(load), DupTest(load, contours));
    assert forall e :: e in t ==> AgreesWithClassifiers(e, load, contours) by {
      forall e | e in t
        ensures AgreesWithClassifiers(e, load, contours)
      {
        assert Justified(e, CuiTest(load), DupTest(load, contours));
      }
    }
    t
  }

  /** The records of the witness below: "small" is a 480x640 image and every
      other name a 1080x1920 one. */
  function WitnessLoad(n: string): Loaded
  {
    if n == "small" then Image(Dims(480, 640)) else Image(Dims(1080, 1920))
  }

  /** The contour areas of the witness when each pair is judged on its own
      sizes: one 1500 px region against "small", one 3000 px region against
      any other candidate. */
  function PerPairAreas(b: string, c: string): seq<Area>
  {
    if c == "full" then [3000.0] else [1500.0]
  }

  /** The same regions once the base has been shrunk to 480x640: against
      "full" every area scales by 307200/2073600. The pair with "small" is
      compared at 480x640 in both runs. */
  function WrittenAreas(b: string, c: string): seq<Area>
  {
    if c == "full" then [3000.0 * (307200.0 / 2073600.0)] else [1500.0]
  }

  /** The pair with "small" is compared at 480x640 (minimum area 153.6,
      threshold 1000) in either run: its 1500 px region makes it distinct. */
  lemma SmallPairIsDistinct()
    ensures JudgePair(Dims(1080, 1920), Dims(480, 640), [1500.0]).common == Dims(480, 640)
    ensures !JudgePair(Dims(1080, 1920), Dims(480, 640), [1500.0]).duplicate
  {
    assert JudgePair(Dims(1080, 1920), Dims(480, 640), [1500.0]).params.minArea == 153.6;
    ScoreOfOneRegion(1500.0, 153.6);
  }

  /** Against the shrunk base the 3000 px region of "full" measures about
      444 px: it survives the minimum area 153.6 but scores below the
      threshold 1000. */
  lemma ShrunkPairIsDuplicate()
    ensures JudgePair(Dims(480, 640), Dims(1080, 1920), WrittenAreas("base", "full")).duplicate
  {
    var shrunk := 3000.0 * (307200.0 / 2073600.0);
    SmallerFrameUntouched(Dims(480, 640), Dims(1080, 1920));
    assert JudgePair(Dims(480, 640), Dims(1080, 1920), [shrunk]).params.minArea == 153.6;
    ScoreOfOneRegion(shrunk, 153.6);
  }

  /** As written, "small" shrinks the base to 480x640, and "full" is then
      deleted as a duplicate. */
  lemma WrittenPassDeletesFull()
    ensures ShrinkingPass("base", Dims(1080, 1920), ["small", "full"], WitnessLoad, WrittenAreas).removed == {"full"}
  {
    var small := Dims(480, 640);
    var cands := ["small", "full"];
    assert cands[1..] == ["full"] && cands[1..][1..] == [];
    ShrunkPairIsDuplicate();
    var tail := ShrinkingPass("base", small, ["full"], WitnessLoad, WrittenAreas);
    assert tail.removed == {"full"} by {
      assert ["full"][1..] == [];
      assert !IsCui(WitnessLoad("full"));
    }
    SmallPairIsDistinct();
    assert !IsCui(WitnessLoad("small"));
    assert WrittenAreas("base", "small") == [1500.0];
  }

  /** Judged on its own sizes, the pair with "full" is compared at 1080x1920
      (minimum area 2073.6, threshold 2000): its 3000 px region survives and
      scores above the threshold. */
  lemma FullPairIsDistinct()
    ensures !JudgePair(Dims(1080, 1920), Dims(1080, 1920), PerPairAreas("base", "full")).duplicate
  {
    SmallerFrameUntouched(Dims(1080, 1920), Dims(1080, 1920));
    assert JudgePair(Dims(1080, 1920), Dims(1080, 1920), [3000.0]).params.minArea == 2073.6;
    ScoreOfOneRegion(3000.0, 2073.6);
  }

  /** With each pair judged on its own sizes both candidates are distinct,
      so nothing is removed. */
  lemma PerPairPassKeepsFull()
    ensures CandidatePass("base", ["small", "full"], CuiTest(WitnessLoad), DupTest(WitnessLoad, PerPairAreas)).removed == {}
  {
    var isCui := CuiTest(WitnessLoad);
    var isDup := DupTest(WitnessLoad, PerPairAreas);
    SmallPairIsDistinct();
    FullPairIsDistinct();
    assert PerPairAreas("base", "small") == [1500.0];
    assert !isCui("small") && !isDup("base", "small");
    assert !isCui("full") && !isDup("base", "full");
    var p := CandidatePass("base", ["small", "full"], isCui, isDup);
    assert forall c :: c !in p.removed;
  }

  /** Two candidates of a 1080x1920 base: a 480x640 one, then a 1080x1920
      one whose only change is one 3000 px region. The code as written
      deletes the second as a duplicate of the base; judging each pair on
      its own sizes keeps it. */
  lemma ShrunkBaseFlipsVerdict()
    ensures ShrinkingPass("base", Dims(1080, 1920), ["small", "full"], WitnessLoad, WrittenAreas).removed == {"full"}
    ensures CandidatePass("base", ["small", "full"], CuiTest(WitnessLoad), DupTest(WitnessLoad, PerPairAreas)).removed == {}
  {
    WrittenPassDeletesFull();
    PerPairPassKeepsFull();
  }

  /** The bases of all groups: every comparison of the folder's trace is
      made against a record the trace keeps. */
  lemma {:induction false} GroupComparisonsUseKeptBases(ids: seq<string>, groups: map<string, set<string>>,
                                                         pick: set<string> -> string, isCui: string -> bool,
                                                         isDup: (string, string) -> bool)
    requires ValidPick(pick)
    requires forall id :: id in ids ==> id in groups
    ensures var t := SweepGroups(ids, groups, pick, isCui, isDup);
      forall e :: e in t && e.IsComparison() ==> Keep(e.base) in t
    decreases |ids|
  {
    if |ids| > 0 {
      var first := Sweep(groups[ids[0]], pick, isCui, isDup);
      var others := SweepGroups(ids[1..], groups, pick, isCui, isDup);
      var t := SweepGroups(ids, groups, pick, isCui, isDup);
      assert t == first + others;
      assert forall id :: id in ids[1..] ==> id in ids;
      ComparisonsUseKeptBases(groups[ids[0]], pick, isCui, isDup);
      GroupComparisonsUseKeptBases(ids[1..], groups, pick, isCui, isDup);
      forall e | e in t && e.IsComparison()
        ensures Keep(e.base) in t
      {
        if e in first {
          assert Keep(e.base) in first;
        } else {
          assert e in others;
          assert Keep(e.base) in others;
        }
      }
    }
  }

  /** The folder's trace, for any pair verdicts, can be carried out on a
      folder holding every file: each file is settled once, either removed
      or kept; every removed file is there to be removed; and every base a
      duplicate is filed under is there and never removed itself. */
  lemma FolderTraceFits<C>(fs: map<Path, C>, files: seq<string>, ids: seq<string>,
                           pick: set<string> -> string, load: string -> Loaded,
                           isDup: (string, string) -> bool)
    requires ValidPick(pick)
    requires NoDup(ids) && forall id :: id in ids <==> id in GroupByCameraId(files)
    requires forall n :: n in files ==> Path(Root, n) in fs
    ensures var t := SweepGroups(ids, GroupByCameraId(files), pick, CuiTest(load), isDup);
      && NoDup(Subjects(t))
      && (forall n :: n in files ==> (n in Removed(t) <==> Keep(n) !in t))
      && (forall n :: n in Removed(t) ==> Path(Root, n) in fs)
      && (forall e :: e in t && e.Dup? ==> Path(Root, e.base) in fs && e.base !in Removed(t))
  {
    var isCui := CuiTest(load);
    var groups := GroupByCameraId(files);
    var t := SweepGroups(ids, groups, pick, isCui, isDup);
    SweepFolder(files, ids, pick, isCui, isDup);
    RemovedOrKept(t);
    GroupComparisonsUseKeptBases(ids, groups, pick, isCui, isDup);
    forall e | e in t && e.Dup?
      ensures Path(Root, e.base) in fs && e.base !in Removed(t)
    {
      assert e.IsComparison();
      assert Keep(e.base) in t;
    }
  }

  /** The end state of a run with any pair verdicts, on a folder holding
      every listed file: every disposition finds its file; the working
      folder keeps exactly the files popped as readable bases, each readable
      and above the floor; and under `remove` nothing outside the working
      folder changes. */
  lemma FolderEndState<C>(action: Action, fs: map<Path, C>, files: seq<string>, ids: seq<string>,
                          pick: set<string> -> string, load: string -> Loaded,
                          isDup: (string, string) -> bool)
    requires ValidPick(pick)
    requires NoDup(ids) && forall id :: id in ids <==> id in GroupByCameraId(files)
    requires forall n :: n in files ==> Path(Root, n) in fs
    ensures var t := SweepGroups(ids, GroupByCameraId(files), pick, CuiTest(load), isDup);
      && Execute(action, fs, t).Some?
      && (forall n :: n in files ==> (Path(Root, n) in Execute(action, fs, t).value <==> Keep(n) in t))
      && (forall n :: n in files && Keep(n) in t ==> !IsCui(load(n)))
      && (action == Remove ==> OutsideRootUnchanged(fs, Execute(action, fs, t).value))
  {
    var t := SweepGroups(ids, GroupByCameraId(files), pick, CuiTest(load), isDup);
    FolderTraceFits(fs, files, ids, pick, load, isDup);
    ExecuteTrace(action, fs, t);
    forall n | n in files && Keep(n) in t
      ensures !IsCui(load(n))
    {
      assert Justified(Keep(n), CuiTest(load), isDup);
    }
  }

  /** The end state of the run as written: the working folder keeps exactly
      the files popped as readable bases, each readable and above the
      floor; under `remove` nothing outside it changes. */
  lemma RunLeavesOnlyKeptBases<C>(action: Action, fs: map<Path, C>, files: seq<string>, ids: seq<string>,
                                      pick: set<string> -> string, load: string -> Loaded,
                                      contours: (string, string) -> seq<Area>)
    requires ValidPick(pick)
    requires NoDup(ids) && forall id :: id in ids <==> id in GroupByCameraId(files)
    requires forall n :: n in files ==> Path(Root, n) in fs
    ensures var t := RunTrace(files, ids, pick, load, contours);
      && Execute(action, fs, t).Some?
      && (forall n :: n in files ==> (Path(Root, n) in Execute(action, fs, t).value <==> Keep(n) in t))
      && (forall n :: n in files && Keep(n) in t ==> !IsCui(load(n)))
      && (action == Remove ==> OutsideRootUnchanged(fs, Execute(action, fs, t).value))
  {
    FolderEndState(action, fs, files, ids, pick, load, RunVerdicts(files, pick, load, contours));
  }

  /** The end state of the run with every pair judged on its own sizes is
      of the same kind. */
  lemma IntendedRunLeavesOnlyKeptBases<C>(action: Action, fs: map<Path, C>, files: seq<string>, ids: seq<string>,
                                              pick: set<string> -> string, load: string -> Loaded,
                                              contours: (string, string) -> seq<Area>)
    requires ValidPick(pick)
    requires NoDup(ids) && forall id :: id in ids <==> id in GroupByCameraId(files)
    requires forall n :: n in files ==> Path(Root, n) in fs
    ensures var t := IntendedTrace(files, ids, pick, load, contours);
      && Execute(action, fs, t).Some?
      && (forall n :: n in files ==> (Path(Root, n) in Execute(action, fs, t).value <==> Keep(n) in t))
      && (action == Remove ==> OutsideRootUnchanged(fs, Execute(action, fs, t).value))
  {
    FolderEndState(action, fs, files, ids, pick, load, DupTest(load, contours));
  }
}

=== FILE: pair_comparison.dfy ===
/** The verdict on one base/candidate pair: shrink both frames to their
    common size, pick the area fraction and the similarity threshold from the
    common size, score the contours and call the pair a duplicate when the
    score is below the threshold. */
module PairComparison {
  import opened ResolutionPolicy
  import opened PairGeometry
  import opened ChangeScorer

  /** The per-pair parameters: area fraction, minimum contour area and
      similarity threshold. */
  datatype PairParams = PairParams(fraction: real, minArea: real, threshold: nat)

  /** The two area branches of the pair loop, on the common (post-resize)
      size: one picks the fraction handed to calculate_min_contour_area, the
      other the similarity threshold. */
  function PairParameters(common: Dims): (p: PairParams)
    ensures p.fraction == TierAreaFraction(AreaTier(common.Area()))
    ensures p.threshold == TierThreshold(AreaTier(common.Area()))
    ensures p.minArea == MinContourArea(common.h, common.w, p.fraction)
    ensures 0.0 <= p.minArea && 0 < p.threshold
  {
    var fraction :=
      if common.h * common.w < 480 * 640 then 0.00025
      else if common.h * common.w < 720 * 1280 then 0.0005
      else DefaultAreaFraction;
    var threshold :=
      if common.h * common.w < 480 * 640 then 500
      else if common.h * common.w < 720 * 1280 then 1000
      else 2000;
    PairParams(fraction, MinContourArea(common.h, common.w, fraction), threshold)
  }

  /** Everything the pair loop decides about one pair. */
  datatype Verdict = Verdict(common: Dims, params: PairParams, score: real, duplicate: bool)

  /** One iteration of the candidate loop after both frames were loaded and
      preprocessed: `prev` and `next` are the sizes of the two frames and
      `areas` the contour areas found in their (dilated) change mask. */
  function JudgePair(prev: Dims, next: Dims, areas: seq<Area>): (v: Verdict)
    ensures v.common.h <= prev.h && v.common.h <= next.h
    ensures v.common.w <= prev.w && v.common.w <= next.w
    ensures v.params.threshold == TierThreshold(AreaTier(v.common.Area()))
    ensures v.score >= 0.0
    ensures v.duplicate <==> v.score < v.params.threshold as real
    ensures v.common == AlignFrames(prev, next).prevOut
    ensures v.params == PairParameters(v.common)
    ensures v.score == Score(areas, v.params.minArea)
  {
    var common := AlignFrames(prev, next).prevOut;
    var params := PairParameters(common);
    var score := Score(areas, params.minArea);
    Verdict(common, params, score, score < params.threshold as real)
  }

  /** Both per-pair parameters grow with the common area. */
  lemma PairParametersMonotone(c1: Dims, c2: Dims)
    requires c1.Area() <= c2.Area()
    ensures PairParameters(c1).fraction <= PairParameters(c2).fraction
    ensures PairParameters(c1).threshold <= PairParameters(c2).threshold
  {
    AreaTierMonotone(c1.Area(), c2.Area());
  }

  /** A pair in which no contour reaches the minimum area scores 0 and is a
      duplicate, in every tier. */
  lemma NoSurvivorMeansDuplicate(prev: Dims, next: Dims, areas: seq<Area>)
    requires forall i :: 0 <= i < |areas| ==> areas[i] < JudgePair(prev, next, areas).params.minArea
    ensures JudgePair(prev, next, areas).score == 0.0
    ensures JudgePair(prev, next, areas).duplicate
  {
    var v := JudgePair(prev, next, areas);
    NothingSurvives(areas, v.params.minArea);
  }

  /** Two identical frames are always duplicates, given only that contour
      extraction finds nothing in an all-black mask. */
  lemma IdenticalFramesAreDuplicates(d: Dims, frame: seq<Pixel>, contours: seq<Pixel> -> seq<Area>)
    requires contours(Blank(|frame|)) == []
    ensures JudgePair(d, d, contours(ChangeMask(frame, frame))).duplicate
  {
    ChangeMaskOfIdenticalFrames(frame);
    NoSurvivorMeansDuplicate(d, d, []);
  }

  /** More change never makes a pair look more similar: one more contour can
      only raise the score, so a distinct pair stays distinct. */
  lemma ExtraContourNeverLowersScore(prev: Dims, next: Dims, areas: seq<Area>, extra: Area)
    ensures JudgePair(prev, next, areas).score <= JudgePair(prev, next, areas + [extra]).score
    ensures !JudgePair(prev, next, areas).duplicate ==> !JudgePair(prev, next, areas + [extra]).duplicate
  {
    var more := areas + [extra];
    assert more[..|more| - 1] == areas;
    var kept := Surviving(areas, JudgePair(prev, next, areas).params.minArea);
    assert (kept + [extra])[..|kept|] == kept;
  }

  /** In a common size of at least 2,000,000 pixels the minimum contour area
      is at least the threshold of 2000, so such a pair is a duplicate exactly
      when no contour survives the area filter. */
  lemma LargeFramesDuplicateIffNoSurvivor(prev: Dims, next: Dims, areas: seq<Area>)
    requires AlignFrames(prev, next).prevOut.Area() >= 2000000
    ensures var v := JudgePair(prev, next, areas);
      v.duplicate <==> forall i :: 0 <= i < |areas| ==> areas[i] < v.params.minArea
  {
    var v := JudgePair(prev, next, areas);
    var c := v.common;
    assert AreaTier(c.Area()) == High;
    assert v.params.minArea == (c.h * c.w) as real * 0.001;
    assert v.params.minArea >= 2000.0;
    if exists i :: 0 <= i < |areas| && areas[i] >= v.params.minArea {
      var i :| 0 <= i < |areas| && areas[i] >= v.params.minArea;
      ScoreAtLeastMinimumWhenAnySurvives(areas, v.params.minArea, i);
    } else {
      NoSurvivorMeansDuplicate(prev, next, areas);
    }
  }

  /** Two 1920x1080 pairs at the default fraction: the minimum contour area is
      2073.6; a 50x50 changed patch (2500 px) survives and makes the pair
      distinct, a 10x10 patch (100 px) is filtered out and the pair is a
      duplicate. */
  lemma FullHdPatchScenarios()
    ensures JudgePair(Dims(1080, 1920), Dims(1080, 1920), [2500.0]).params.minArea == 2073.6
    ensures !JudgePair(Dims(1080, 1920), Dims(1080, 1920), [2500.0]).duplicate
    ensures JudgePair(Dims(1080, 1920), Dims(1080, 1920), [100.0]).duplicate
  {
    var d := Dims(1080, 1920);
    SmallerFrameUntouched(d, d);
    assert JudgePair(d, d, [2500.0]).params.minArea == 2073.6;
    ScoreAtLeastMinimumWhenAnySurvives([2500.0], 2073.6, 0);
    assert Score([2500.0], 2073.6) >= 2500.0 by {
      assert [2500.0][..0] == [];
    }
    NoSurvivorMeansDuplicate(d, d, [100.0]);
  }
}

=== FILE: pair_geometry.dfy ===
/** Pair geometry: the common size two frames are shrunk to before they are
    compared, and the coordinates of the black border drawn by
    draw_color_mask. */
module PairGeometry {
  import opened ResolutionPolicy

  function Min(a: nat, b: nat): nat
  {
    if a <= b then a else b
  }

  /** The two frame sizes after the resize step, and whether each frame was
      handed to `cv2.resize`. */
  datatype Alignment = Alignment(prevOut: Dims, nextOut: Dims, resizedPrev: bool, resizedNext: bool)

  /** The resize step of the pair loop: the target is the element-wise
      minimum of the two sizes, and a frame is resized only when its size
      differs from the target. */
  function AlignFrames(prev: Dims, next: Dims): (a: Alignment)
    ensures a.prevOut == a.nextOut
    ensures a.prevOut.h <= prev.h && a.prevOut.w <= prev.w
    ensures a.prevOut.h <= next.h && a.prevOut.w <= next.w
    ensures a.prevOut.h == prev.h || a.prevOut.h == next.h
    ensures a.prevOut.w == prev.w || a.prevOut.w == next.w
    ensures a.resizedPrev <==> prev != a.prevOut
    ensures a.resizedNext <==> next != a.nextOut
  {
    var target := Dims(Min(prev.h, next.h), Min(prev.w, next.w));
    var rp := prev != target;
    var rn := next != target;
    Alignment(if rp then target else prev, if rn then target else next, rp, rn)
  }

  /** The common size is the largest size that fits inside both frames: any
      size that neither frame would have to grow to reach fits inside it. */
  lemma AlignmentIsLargestCommonFit(prev: Dims, next: Dims, d: Dims)
    requires d.h <= prev.h && d.h <= next.h && d.w <= prev.w && d.w <= next.w
    ensures var c := AlignFrames(prev, next).prevOut; d.h <= c.h && d.w <= c.w
  {
    var c := AlignFrames(prev, next).prevOut;
    assert c.h == prev.h || c.h == next.h;
    assert c.w == prev.w || c.w == next.w;
  }

  /** A frame that already fits inside the other keeps its size and is not
      resized; two frames of one size are both left alone. */
  lemma SmallerFrameUntouched(prev: Dims, next: Dims)
    requires prev.h <= next.h && prev.w <= next.w
    ensures !AlignFrames(prev, next).resizedPrev
    ensures AlignFrames(prev, next).prevOut == prev
    ensures prev == next ==> !AlignFrames(prev, next).resizedNext
  {
    AlignmentIsLargestCommonFit(prev, next, prev);
  }

  /** If neither frame is below the resolution floor, neither is their
      common size. */
  lemma AlignmentKeepsFloor(prev: Dims, next: Dims)
    requires !IsVeryLowResolution(prev) && !IsVeryLowResolution(next)
    ensures !IsVeryLowResolution(AlignFrames(prev, next).prevOut)
  {
    AlignmentIsLargestCommonFit(prev, next, Dims(MinHeight, MinWidth));
  }

  /** Shrinking can only lower the tier: the pair's tier never exceeds the
      tier of either frame on its own. */
  lemma PairTierAtMostImageTier(prev: Dims, next: Dims)
    requires !IsVeryLowResolution(prev) && !IsVeryLowResolution(next)
    ensures var c := AlignFrames(prev, next).prevOut;
      && AreaTier(c.Area()).Rank() <= ImageTier(prev).Rank()
      && AreaTier(c.Area()).Rank() <= ImageTier(next).Rank()
  {
    var c := AlignFrames(prev, next).prevOut;
    AreaShrinks(c, prev);
    AreaShrinks(c, next);
    AreaTierMonotone(c.Area(), prev.Area());
    AreaTierMonotone(c.Area(), next.Area());
  }

  /** A size that fits inside another has no more pixels. */
  lemma AreaShrinks(small: Dims, big: Dims)
    requires small.h <= big.h && small.w <= big.w
    ensures small.Area() <= big.Area()
  {
    assert small.h * small.w <= big.h * small.w;
    assert big.h * small.w <= big.h * big.w;
  }

  /** Python's `int(x / 100)` for an integer numerator: the quotient
      truncated toward zero. */
  function TruncPercent(numerator: int): (q: int)
    ensures numerator >= 0 ==> 0 <= q && q * 100 <= numerator < q * 100 + 100
    ensures numerator < 0 ==> q <= 0 && numerator <= q * 100 < numerator + 100
  {
    if numerator >= 0 then numerator / 100 else -((-numerator) / 100)
  }

  /** Border percentages, in the order of `black_mask`: left, top, right,
      bottom. */
  datatype Borders = Borders(left: int, top: int, right: int, bottom: int)

  /** The default `black_mask` of preprocess_image_change_detection. */
  const DefaultBorders := Borders(5, 10, 5, 0)

  /** The edge coordinates of the four mask rectangles: the left one ends at
      column xMin, the top one at row yMin, the right one starts at column
      xMax and the bottom one at row yMax. */
  datatype Box = Box(xMin: int, xMax: int, yMin: int, yMax: int)

  /** The four coordinates computed by draw_color_mask for an `h` x `w`
      frame. */
  function MaskBox(d: Dims, b: Borders): (box: Box)
    ensures b.left >= 0 ==> 0 <= box.xMin && box.xMin * 100 <= b.left * d.w < box.xMin * 100 + 100
    ensures b.top >= 0 ==> 0 <= box.yMin && box.yMin * 100 <= b.top * d.h < box.yMin * 100 + 100
    ensures b.right >= 0 ==> box.xMax <= d.w && (d.w - box.xMax) * 100 <= b.right * d.w < (d.w - box.xMax) * 100 + 100
    ensures b.bottom >= 0 ==> box.yMax <= d.h && (d.h - box.yMax) * 100 <= b.bottom * d.h < (d.h - box.yMax) * 100 + 100
  {
    NonNegativeProduct(b.left, d.w);
    NonNegativeProduct(b.top, d.h);
    NonNegativeProduct(b.right, d.w);
    NonNegativeProduct(b.bottom, d.h);
    Box(TruncPercent(b.left * d.w),
        d.w - TruncPercent(b.right * d.w),
        TruncPercent(b.top * d.h),
        d.h - TruncPercent(b.bottom * d.h))
  }

  lemma NonNegativeProduct(p: int, n: nat)
    ensures p >= 0 ==> p * n >= 0
  {
  }

  /** Percentages in [0, 100] whose opposite sides sum to at most 100 give a
      window inside the frame: 0 <= xMin <= xMax <= w and 0 <= yMin <= yMax <= h. */
  lemma MaskBoxWithinFrame(d: Dims, b: Borders)
    requires 0 <= b.left && 0 <= b.right && b.left + b.right <= 100
    requires 0 <= b.top && 0 <= b.bottom && b.top + b.bottom <= 100
    ensures var box := MaskBox(d, b);
      && 0 <= box.xMin <= box.xMax <= d.w
      && 0 <= box.yMin <= box.yMax <= d.h
  {
    var box := MaskBox(d, b);
    SidesFit(b.left, b.right, d.w, box.xMin, d.w - box.xMax);
    SidesFit(b.top, b.bottom, d.h, box.yMin, d.h - box.yMax);
  }

  /** Two truncated percentages of `n` whose percentages sum to at most 100
      sum to at most `n`. */
  lemma SidesFit(p1: int, p2: int, n: nat, q1: int, q2: int)
    requires 0 <= p1 && 0 <= p2 && p1 + p2 <= 100
    requires 0 <= q1 && q1 * 100 <= p1 * n
    requires 0 <= q2 && q2 * 100 <= p2 * n
    ensures q1 + q2 <= n
  {
    assert (q1 + q2) * 100 <= p1 * n + p2 * n;
    assert p1 * n + p2 * n == (p1 + p2) * n;
    assert (p1 + p2) * n <= 100 * n;
  }

  /** With the default mask (5% left, 10% top, 5% right, 0% bottom) the
      bottom rectangle starts at row `h`, below the frame, so the bottom edge
      is never masked; a 1080x1920 frame gets the edge coordinates 96, 1824,
      108 and 1080. */
  lemma DefaultMaskKeepsBottom(d: Dims)
    ensures MaskBox(d, DefaultBorders).yMax == d.h
    ensures MaskBox(Dims(1080, 1920), DefaultBorders) == Box(96, 1824, 108, 1080)
  {
  }

  /** Whether draw_color_mask paints pixel (x, y). A filled rectangle
      (thickness -1) covers both of its corner points, so the four
      rectangles paint every pixel on or left of column xMin, on or above
      row yMin, on or right of column xMax, or on or below row yMax. */
  predicate Masked(box: Box, x: int, y: int)
  {
    x <= box.xMin || y <= box.yMin || x >= box.xMax || y >= box.yMax
  }

  /** The window the default mask leaves on a 1080x1920 frame: columns
      97..1823 and rows 109..1079, the last row included. */
  lemma DefaultMaskWindow(x: int, y: int)
    requires 0 <= x < 1920 && 0 <= y < 1080
    ensures !Masked(MaskBox(Dims(1080, 1920), DefaultBorders), x, y) <==> 97 <= x <= 1823 && 109 <= y <= 1079
  {
    DefaultMaskKeepsBottom(Dims(1080, 1920));
  }
}

=== FILE: resolution_policy.dfy ===
/** Resolution policy: the very-low-resolution floor, the per-image blur
    kernel list, and the area tiers that fix the minimum contour area and the
    similarity threshold of a pair. */
module ResolutionPolicy {

  /** Frame dimensions, as `image.shape[:2]` gives them. */
  datatype Dims = Dims(h: nat, w: nat) {
    function Area(): nat { h * w }
  }

  /** Defaults of is_image_very_low_resolution. */
  const MinHeight: nat := 120
  const MinWidth: nat := 176

  /** Area cutoffs of the tiers: 480x640 and 720x1280 pixels. */
  const LowAreaLimit: nat := 480 * 640
  const MidAreaLimit: nat := 720 * 1280

  /** Default `base_percentage` of calculate_min_contour_area. */
  const DefaultAreaFraction: real := 0.001

  /** Below the floor in either dimension; a frame at or above the floor has
      at least 120*176 pixels. */
  function IsVeryLowResolution(d: Dims): (low: bool)
    ensures !low ==> d.h >= MinHeight && d.w >= MinWidth && d.Area() >= MinHeight * MinWidth
  {
    var low := d.h < MinHeight || d.w < MinWidth;
    assert !low ==> d.h * d.w >= MinHeight * d.w >= MinHeight * MinWidth;
    low
  }

  /** What `cv2.imread` hands back: nothing, or an image of some size. */
  datatype Loaded = Unreadable | Image(dims: Dims)

  /** A record is corrupted/unsupported/invalid when it cannot be read or is
      below the resolution floor, whatever its pixels are. */
  function IsCui(img: Loaded): (cui: bool)
    ensures img.Unreadable? ==> cui
    ensures !cui ==> img.Image? && img.dims.h >= MinHeight && img.dims.w >= MinWidth
  {
    img.Unreadable? || IsVeryLowResolution(img.dims)
  }

  /** The explicit form of the blur list: `None` becomes NoSmoothing. */
  datatype Smoothing = NoSmoothing | Kernels(sizes: seq<nat>)

  /** gaussian_blur_radius_list_based_on_resolution, branch by branch. */
  function BlurKernels(d: Dims): (s: Smoothing)
    ensures s.NoSmoothing? <==> IsVeryLowResolution(d)
    ensures s.Kernels? ==> OddIncreasing(s.sizes) && |s.sizes| >= 2
  {
    if IsVeryLowResolution(d) then NoSmoothing
    else if d.h * d.w < 480 * 640 then Kernels([1, 3])
    else if d.h * d.w < 720 * 1280 then Kernels([3, 5])
    else Kernels([5, 7, 9])
  }

  /** Every kernel size is a positive odd number (what GaussianBlur accepts)
      and each pass uses a strictly larger kernel than the one before. */
  predicate OddIncreasing(sizes: seq<nat>)
  {
    && (forall i :: 0 <= i < |sizes| ==> sizes[i] > 0 && sizes[i] % 2 == 1)
    && (forall i, j :: 0 <= i < j < |sizes| ==> sizes[i] < sizes[j])
  }

  /** The four resolution buckets: below the floor, and the three area bands
      the blur list and the pair loop branch on. */
  datatype Tier = VeryLow | Low | Mid | High {
    function Rank(): nat
    {
      match this
      case VeryLow => 0
      case Low => 1
      case Mid => 2
      case High => 3
    }
  }

  /** The bucket of a pixel area, with no floor check (the per-pair branches
      test only the area). */
  function AreaTier(area: nat): (t: Tier)
    ensures t != VeryLow
  {
    if area < LowAreaLimit then Low
    else if area < MidAreaLimit then Mid
    else High
  }

  /** The bucket of one image from its own dimensions. */
  function ImageTier(d: Dims): (t: Tier)
    ensures t == VeryLow <==> IsVeryLowResolution(d)
    ensures t != VeryLow ==> t == AreaTier(d.Area())
  {
    if IsVeryLowResolution(d) then VeryLow else AreaTier(d.Area())
  }

  /** Blur kernels per tier, as gaussian_blur_radius_list_based_on_resolution
      returns them. */
  function TierKernels(t: Tier): Smoothing
  {
    match t
    case VeryLow => NoSmoothing
    case Low => Kernels([1, 3])
    case Mid => Kernels([3, 5])
    case High => Kernels([5, 7, 9])
  }

  /** Minimum-contour-area fraction per tier, as the pair loop passes it to
      calculate_min_contour_area (a very-low frame never reaches scoring; it
      shares the low row). */
  function TierAreaFraction(t: Tier): real
  {
    match t
    case VeryLow => 0.00025
    case Low => 0.00025
    case Mid => 0.0005
    case High => DefaultAreaFraction
  }

  /** Similarity threshold per tier, as the pair loop sets it. */
  function TierThreshold(t: Tier): nat
  {
    match t
    case VeryLow => 500
    case Low => 500
    case Mid => 1000
    case High => 2000
  }

  /** calculate_min_contour_area: `height * width * base_percentage`, in
      exact arithmetic. */
  function MinContourArea(height: nat, width: nat, fraction: real): (r: real)
    ensures 0.0 <= fraction ==> 0.0 <= r
    ensures 0.0 <= fraction <= 1.0 ==> r <= (height * width) as real
    ensures fraction > 0.0 ==> (r == 0.0 <==> height * width == 0)
  {
    var pixels := height * width;
    var area := pixels as real;
    assert area == 0.0 <==> pixels == 0;
    ScaleBounds(area, fraction);
    area * fraction
  }

  /** Scaling a non-negative area by a fraction in [0, 1]. */
  lemma ScaleBounds(area: real, fraction: real)
    requires 0.0 <= area
    ensures 0.0 <= fraction ==> 0.0 <= area * fraction
    ensures 0.0 <= fraction <= 1.0 ==> area * fraction <= area
    ensures fraction > 0.0 ==> (area * fraction == 0.0 <==> area == 0.0)
  {
    if 0.0 <= fraction <= 1.0 {
      assert area * (1.0 - fraction) >= 0.0;
    }
    if fraction > 0.0 && area > 0.0 {
      assert area * fraction > 0.0;
    }
  }

  /** The branchy source and the tier table agree: the blur list an image
      gets is its tier's row. */
  lemma BlurKernelsFollowTier(d: Dims)
    ensures BlurKernels(d) == TierKernels(ImageTier(d))
  {
  }

  /** The buckets cover every area without overlap: exactly one of the three
      area intervals holds, and it names the tier. */
  lemma TiersPartitionArea(area: nat)
    ensures AreaTier(area) == Low <==> area < 307200
    ensures AreaTier(area) == Mid <==> 307200 <= area < 921600
    ensures AreaTier(area) == High <==> 921600 <= area
  {
  }

  /** Very low resolution is exactly `h < 120 || w < 176`, and then (and only
      then) there is no kernel list. */
  lemma VeryLowHasNoKernels(d: Dims)
    ensures ImageTier(d) == VeryLow <==> d.h < 120 || d.w < 176
    ensures BlurKernels(d) == NoSmoothing <==> ImageTier(d) == VeryLow
  {
  }

  /** A larger area never lands in a lower tier, never gets a smaller area
      fraction and never gets a smaller similarity threshold. */
  lemma AreaTierMonotone(a1: nat, a2: nat)
    requires a1 <= a2
    ensures AreaTier(a1).Rank() <= AreaTier(a2).Rank()
    ensures TierAreaFraction(AreaTier(a1)) <= TierAreaFraction(AreaTier(a2))
    ensures TierThreshold(AreaTier(a1)) <= TierThreshold(AreaTier(a2))
  {
  }

  /** Among images above the floor, a larger image never gets a lower tier
      nor a smaller largest kernel. */
  lemma ImageTierMonotone(d1: Dims, d2: Dims)
    requires !IsVeryLowResolution(d1) && !IsVeryLowResolution(d2)
    requires d1.Area() <= d2.Area()
    ensures ImageTier(d1).Rank() <= ImageTier(d2).Rank()
    ensures var k1, k2 := BlurKernels(d1).sizes, BlurKernels(d2).sizes;
      k1[|k1| - 1] <= k2[|k2| - 1]
  {
  }

  /** Every frame above the floor is at least 120x176 = 21120 pixels, so it is
      never mistaken for an empty frame by the area rules. */
  lemma FloorBoundsArea(d: Dims)
    requires !IsVeryLowResolution(d)
    ensures d.Area() >= MinHeight * MinWidth
  {
    assert d.h * d.w >= MinHeight * d.w;
    assert MinHeight * d.w >= MinHeight * MinWidth;
  }

  /** Unreadable and undersized inputs are both CUI; a readable image at or
      above the floor in both dimensions is not. A 50x50 image is CUI. */
  lemma CuiClassification(d: Dims)
    ensures IsCui(Unreadable)
    ensures IsCui(Image(d)) <==> d.h < 120 || d.w < 176
    ensures IsCui(Image(Dims(50, 50)))
  {
  }

  /** Growing either side never shrinks the minimum contour area. */
  lemma MinContourAreaMonotone(h1: nat, w1: nat, h2: nat, w2: nat, fraction: real)
    requires h1 <= h2 && w1 <= w2 && 0.0 <= fraction
    ensures MinContourArea(h1, w1, fraction) <= MinContourArea(h2, w2, fraction)
  {
    assert h1 * w1 <= h2 * w1 <= h2 * w2;
    var a1, a2 := (h1 * w1) as real, (h2 * w2) as real;
    assert a1 <= a2;
    assert (a2 - a1) * fraction >= 0.0;
  }
}

=== FILE: shrinking_base.dfy ===
/** The sweep of one group as remove_duplicates_within_group writes it, with
    the real classifiers in place of the oracles. Inside the candidate loop
    the base frame is replaced by its resized copy and never restored, so
    every candidate after the first readable one is judged against a base
    already shrunk to the common size of the earlier ones: the area tier, the
    minimum contour area and the threshold of a pair follow that running
    size. What the run sees of each record is a parameter: its loaded size,
    and the contour areas of each pair's change mask. */
module ShrinkingBase {
  import opened ResolutionPolicy
  import opened PairGeometry
  import opened ChangeScorer
  import opened PairComparison
  import opened DedupSweep

  /** The CUI test applied to every popped base and candidate. */
  function CuiTest(load: string -> Loaded): (isCui: string -> bool)
    ensures forall n :: isCui(n) <==> IsCui(load(n))
  {
    n => IsCui(load(n))
  }

  /** The size of the base frame once it has been aligned, in order, with
      every readable record of `seen`; CUI records are skipped before the
      resize and leave it alone. */
  function BaseSizeAfter(start: Dims, seen: seq<string>, load: string -> Loaded): (d: Dims)
    ensures d.h <= start.h && d.w <= start.w
    ensures forall c :: c in seen && !IsCui(load(c)) ==> d.h <= load(c).dims.h && d.w <= load(c).dims.w
    decreases |seen|
  {
    if |seen| == 0 then start
    else
      var next := if IsCui(load(seen[0])) then start else AlignFrames(start, load(seen[0]).dims).prevOut;
      var d := BaseSizeAfter(next, seen[1..], load);
      assert forall c :: c in seen ==> c == seen[0] || c in seen[1..];
      d
  }

  /** The running size is the largest size that fits inside the base and
      every readable record seen: the element-wise minimum of all of them. */
  lemma {:induction false} BaseSizeIsLargestCommonFit(start: Dims, seen: seq<string>, load: string -> Loaded, d: Dims)
    requires d.h <= start.h && d.w <= start.w
    requires forall c :: c in seen && !IsCui(load(c)) ==> d.h <= load(c).dims.h && d.w <= load(c).dims.w
    ensures d.h <= BaseSizeAfter(start, seen, load).h && d.w <= BaseSizeAfter(start, seen, load).w
    decreases |seen|
  {
    if |seen| > 0 {
      var next := if IsCui(load(seen[0])) then start else AlignFrames(start, load(seen[0]).dims).prevOut;
      if !IsCui(load(seen[0])) {
        AlignmentIsLargestCommonFit(start, load(seen[0]).dims, d);
      }
      assert forall c :: c in seen[1..] ==> c in seen;
      BaseSizeIsLargestCommonFit(next, seen[1..], load, d);
    }
  }

  /** The inner loop as written, for a readable base whose frame currently
      has size `cur`: a CUI candidate is reported and removed; any other is
      judged against the base at its current size, the base keeps the
      common size for the candidates after it, and a duplicate is
      removed. */
  function ShrinkingPass(base: string, cur: Dims, cands: seq<string>, load: string -> Loaded,
                         contours: (string, string) -> seq<Area>): (p: PassResult)
    ensures forall c :: c in p.removed ==> c in cands
    decreases |cands|
  {
    if |cands| == 0 then PassResult({}, [])
    else
      var c := cands[0];
      assert forall x :: x in cands[1..] ==> x in cands;
      if IsCui(load(c)) then
        var rest := ShrinkingPass(base, cur, cands[1..], load, contours);
        PassResult({c} + rest.removed, [Cui(c)] + rest.events)
      else
        var v := JudgePair(cur, load(c).dims, contours(base, c));
        var rest := ShrinkingPass(base, v.common, cands[1..], load, contours);
        if v.duplicate then PassResult({c} + rest.removed, [Dup(base, c)] + rest.events)
        else PassResult(rest.removed, [Distinct(base, c)] + rest.events)
  }

  /** Which candidates the pass removes: the k-th candidate goes exactly
      when it is CUI, or when it duplicates the base as the base stands after
      the readable candidates before it. */
  lemma {:induction false} ShrinkingPassVerdicts(base: string, cur: Dims, cands: seq<string>, load: string -> Loaded,
                                                  contours: (string, string) -> seq<Area>)
    requires NoDup(cands)
    ensures var p := ShrinkingPass(base, cur, cands, load, contours);
      forall k :: 0 <= k < |cands| ==>
        (cands[k] in p.removed <==>
           IsCui(load(cands[k]))
           || JudgePair(BaseSizeAfter(cur, cands[..k], load), load(cands[k]).dims, contours(base, cands[k])).duplicate)
    decreases |cands|
  {
    if |cands| > 0 {
      var c := cands[0];
      var next := if IsCui(load(c)) then cur else AlignFrames(cur, load(c).dims).prevOut;
      var p := ShrinkingPass(base, cur, cands, load, contours);
      var rest := ShrinkingPass(base, next, cands[1..], load, contours);
      NoDupTail(cands);
      ShrinkingPassVerdicts(base, next, cands[1..], load, contours);
      assert p.removed - {c} == rest.removed;
      forall k | 0 <= k < |cands|
        ensures cands[k] in p.removed <==>
           IsCui(load(cands[k]))
           || JudgePair(BaseSizeAfter(cur, cands[..k], load), load(cands[k]).dims, contours(base, cands[k])).duplicate
      {
        if k == 0 {
          assert cands[..0] == [];
        } else {
          assert cands[k] == cands[1..][k - 1] && cands[k] != c;
          assert cands[..k][0] == c && cands[..k][1..] == cands[1..][..k - 1];
          assert BaseSizeAfter(cur, cands[..k], load) == BaseSizeAfter(next, cands[1..][..k - 1], load);
        }
      }
    }
  }

  /** Each pair of records is judged at most once in `t`. */
  predicate JudgedOnce(t: seq<Event>)
  {
    forall i, j :: 0 <= i < j < |t| && t[i].IsComparison() && t[j].IsComparison() ==>
      t[i].base != t[j].base || t[i].cand != t[j].cand
  }

  /** The verdicts recorded in `t` are those of the oracle `isDup`. */
  predicate VerdictsOf(t: seq<Event>, isDup: (string, string) -> bool)
  {
    forall e :: e in t && e.IsComparison() ==> (isDup(e.base, e.cand) <==> e.Dup?)
  }

  /** A trace that judges each pair once records the verdicts of the oracle
      that reads them back off the trace. */
  lemma JudgedOnceHasVerdicts(t: seq<Event>)
    requires JudgedOnce(t)
    ensures VerdictsOf(t, (b, c) => Dup(b, c) in t)
  {
    forall e | e in t && e.IsComparison()
      ensures Dup(e.base, e.cand) in t <==> e.Dup?
    {
      var i :| 0 <= i < |t| && t[i] == e;
      forall j | 0 <= j < |t| && t[j].IsComparison() && t[j].base == e.base && t[j].cand == e.cand
        ensures t[j] == e
      {
      }
    }
  }

  /** Two traces judging each pair once, with no pair in common, judge each
      pair once one after the other. */
  lemma JudgedOnceConcat(a: seq<Event>, b: seq<Event>)
    requires JudgedOnce(a) && JudgedOnce(b)
    requires forall x, y :: x in a && y in b && x.IsComparison() && y.IsComparison() ==>
      x.base != y.base || x.cand != y.cand
    ensures JudgedOnce(a + b)
  {
    var t := a + b;
    forall i, j | 0 <= i < j < |t| && t[i].IsComparison() && t[j].IsComparison()
      ensures t[i].base != t[j].base || t[i].cand != t[j].cand
    {
      if j < |a| {
        assert t[i] == a[i] && t[j] == a[j];
      } else if i >= |a| {
        assert t[i] == b[i - |a|] && t[j] == b[j - |a|];
      } else {
        assert t[i] in a && t[j] in b;
      }
    }
  }

  /** The pass's events: none keeps a record, every comparison is against
      the base and names a candidate, every event names only the base and
      candidates, and a snapshot without repeats is judged once per pair. */
  lemma {:induction false} ShrinkingPassEvents(base: string, cur: Dims, cands: seq<string>, load: string -> Loaded,
                                                contours: (string, string) -> seq<Area>)
    ensures var p := ShrinkingPass(base, cur, cands, load, contours);
      && (forall e :: e in p.events ==> !e.Keep? && e.Names() <= {base} + (set c | c in cands))
      && (forall e :: e in p.events && e.IsComparison() ==> e.base == base && e.cand in cands)
      && (NoDup(cands) ==> JudgedOnce(p.events))
    decreases |cands|
  {
    if |cands| > 0 {
      var c := cands[0];
      var next := if IsCui(load(c)) then cur else AlignFrames(cur, load(c).dims).prevOut;
      var p := ShrinkingPass(base, cur, cands, load, contours);
      var rest := ShrinkingPass(base, next, cands[1..], load, contours);
      ShrinkingPassEvents(base, next, cands[1..], load, contours);
      var e := p.events[0];
      assert p.events == [e] + rest.events;
      assert forall x :: x in cands[1..] ==> x in cands;
      assert forall x :: x in p.events ==> x == e || x in rest.events;
      if NoDup(cands) {
        NoDupTail(cands);
        JudgedOnceConcat([e], rest.events);
      }
    }
  }

  /** One iteration of the outer loop as written: a CUI base is reported;
      a readable base is kept and the pass runs over a snapshot of the rest,
      starting from the base's loaded size. */
  function ShrinkingStep(images: set<string>, pick: set<string> -> string, load: string -> Loaded,
                         contours: (string, string) -> seq<Area>): (s: StepResult)
    requires ValidPick(pick) && images != {}
    ensures pick(images) in images && pick(images) !in s.remaining
    ensures s.remaining < images
  {
    var base := pick(images);
    var rest := images - {base};
    if IsCui(load(base)) then StepResult([Cui(base)], rest)
    else
      var pass := ShrinkingPass(base, load(base).dims, Enumerate(rest, pick), load, contours);
      StepResult([Keep(base)] + pass.events, rest - pass.removed)
  }

  /** The events of one step as written name only records of the working set,
      every comparison is against the popped base, and each pair is judged
      once. */
  lemma ShrinkingStepEvents(images: set<string>, pick: set<string> -> string, load: string -> Loaded,
                            contours: (string, string) -> seq<Area>)
    requires ValidPick(pick) && images != {}
    ensures var s := ShrinkingStep(images, pick, load, contours);
      && (forall e :: e in s.events ==> e.Names() <= images)
      && (forall e :: e in s.events && e.IsComparison() ==> e.base == pick(images))
      && JudgedOnce(s.events)
  {
    var base := pick(images);
    var rest := images - {base};
    if !IsCui(load(base)) {
      var cands := Enumerate(rest, pick);
      var pass := ShrinkingPass(base, load(base).dims, cands, load, contours);
      ShrinkingPassEvents(base, load(base).dims, cands, load, contours);
      var events := [Keep(base)] + pass.events;
      assert forall x :: x in events ==> x == Keep(base) || x in pass.events;
      JudgedOnceConcat([Keep(base)], pass.events);
    }
  }

  /** The whole `while images:` loop for one group, as written. */
  function ShrinkingSweep(images: set<string>, pick: set<string> -> string, load: string -> Loaded,
                          contours: (string, string) -> seq<Area>): (t: seq<Event>)
    requires ValidPick(pick)
    ensures forall e :: e in t ==> e.Names() <= images
    ensures JudgedOnce(t)
    decreases images
  {
    if images == {} then []
    else
      var step := ShrinkingStep(images, pick, load, contours);
      var later := ShrinkingSweep(step.remaining, pick, load, contours);
      ShrinkingStepEvents(images, pick, load, contours);
      assert forall x, y :: x in step.events && y in later && x.IsComparison() && y.IsComparison() ==>
        x.base != y.base by {
        forall x, y | x in step.events && y in later && x.IsComparison() && y.IsComparison()
          ensures x.base != y.base
        {
          assert y.base in y.Names();
        }
      }
      JudgedOnceConcat(step.events, later);
      step.events + later
  }

  /** Given an oracle that agrees with every verdict the pass as written
      records, the oracle pass over the same snapshot is the same pass. */
  lemma {:induction false} ShrinkingPassIsOraclePass(base: string, cur: Dims, cands: seq<string>,
                                                      load: string -> Loaded,
                                                      contours: (string, string) -> seq<Area>,
                                                      isDup: (string, string) -> bool)
    requires VerdictsOf(ShrinkingPass(base, cur, cands, load, contours).events, isDup)
    ensures CandidatePass(base, cands, CuiTest(load), isDup) == ShrinkingPass(base, cur, cands, load, contours)
    decreases |cands|
  {
    if |cands| > 0 {
      var c := cands[0];
      var next := if IsCui(load(c)) then cur else AlignFrames(cur, load(c).dims).prevOut;
      var p := ShrinkingPass(base, cur, cands, load, contours);
      var rest := ShrinkingPass(base, next, cands[1..], load, contours);
      assert p.events == [p.events[0]] + rest.events;
      assert p.events[0] in p.events;
      assert forall x :: x in rest.events ==> x in p.events;
      ShrinkingPassIsOraclePass(base, next, cands[1..], load, contours, isDup);
    }
  }

  /** Given an oracle that agrees with every verdict the sweep as written
      records, the oracle sweep of the same group is the same trace. */
  lemma {:induction false} ShrinkingSweepIsOracleSweep(images: set<string>, pick: set<string> -> string,
                                                        load: string -> Loaded,
                                                        contours: (string, string) -> seq<Area>,
                                                        isDup: (string, string) -> bool)
    requires ValidPick(pick)
    requires VerdictsOf(ShrinkingSweep(images, pick, load, contours), isDup)
    ensures Sweep(images, pick, CuiTest(load), isDup) == ShrinkingSweep(images, pick, load, contours)
    decreases images
  {
    if images != {} {
      var base := pick(images);
      var rest := images - {base};
      var step := ShrinkingStep(images, pick, load, contours);
      var later := ShrinkingSweep(step.remaining, pick, load, contours);
      assert ShrinkingSweep(images, pick, load, contours) == step.events + later;
      if !IsCui(load(base)) {
        var cands := Enumerate(rest, pick);
        var pass := ShrinkingPass(base, load(base).dims, cands, load, contours);
        assert step.events == [Keep(base)] + pass.events;
        assert forall x :: x in pass.events ==> x in step.events;
        ShrinkingPassIsOraclePass(base, load(base).dims, cands, load, contours, isDup);
      }
      assert Step(images, pick, CuiTest(load), isDup) == step;
      ShrinkingSweepIsOracleSweep(step.remaining, pick, load, contours, isDup);
      SweepUnfolds(images, pick, CuiTest(load), isDup);
    }
  }

  /** The sweep as written is the oracle sweep whose oracle reads the
      verdicts back off the trace: every fact proved of the oracle sweep
      holds of it. */
  lemma WrittenSweepIsOracleSweep(images: set<string>, pick: set<string> -> string, load: string -> Loaded,
                                  contours: (string, string) -> seq<Area>)
    requires ValidPick(pick)
    ensures var t := ShrinkingSweep(images, pick, load, contours);
      Sweep(images, pick, CuiTest(load), (b, c) => Dup(b, c) in t) == t
  {
    var t := ShrinkingSweep(images, pick, load, contours);
    JudgedOnceHasVerdicts(t);
    ShrinkingSweepIsOracleSweep(images, pick, load, contours, (b, c) => Dup(b, c) in t);
  }
}
